=== FILE: README.md ===
# Resource tagger: a Dafny model of the batch-tagging decisions

`resource-tagger.py` tags every AWS resource that lacks the required tags.
It groups the resource ARNs by region. It cuts each region's list into
batches of at most ten. It sends every ARN of a batch that contains `:kms:`
to KMS, one by one. When the batch also holds an ARN without that marker,
it sends the whole batch to
the Resource Groups Tagging API, making at most three attempts in all (so at
most two retries) while that call is throttled. It returns the ARNs it could not tag and the ARNs it
tagged.

This project models the decisions taken along the way. Every answer of a
remote service is an input: a `Remote` value (module `RemoteApi`) maps each
request to its answer. Each request carries the region key, the batch
number and the retry count, so a scenario such as "throttled twice, then
accepted" is just a choice of `Remote`.

Modules, in the order the program runs:

- `Text`: Python's `str.split` with one separator, `[-1]` of its result, and the substring test `p in s`.
- `Arn`: what the tagger reads from an ARN. This is the region field (or the reason there is none), the `:kms:` marker, the KMS key id, and the client region with its `us-east-1` fallback.
- `Grouping`: `group_resources_by_region`, with the region dictionary as an association list in insertion order.
- `Batching`: the slices of at most ten.
- `RemoteApi`: the requests and answers of the two tagging services.
- `Attempt`: one pass of the `try` block for one batch. It covers the KMS calls, the bulk call, the reconciliation of `FailedResourcesMap`, and how control leaves the block.
- `Retry`: the `while retry_count < 3 … else` loop. It appears as a recursive function and as the loop itself, with back-off waits recorded as a sequence.
- `Tagger`: `tag_resources_by_region` over all regions and batches, plus the end-to-end coverage facts.
- `Scenarios`: concrete runs, including two that show an ARN reported twice or in both lists.

The program does not put every ARN in exactly one of the two lists, and the
model follows the program:

- Appends made before a throttle or an error are never taken back.
- KMS ARNs are also sent in the bulk call, because the call gets `batch`, not the non-KMS list. They are reconciled a second time against its reply.

So an ARN can appear more than once in one list, or in both lists.
`Scenarios.RejectedKeyAlsoBulkTagged` and `Scenarios.RetriedKeyTaggedTwice`
exhibit both cases. What does hold is proved:

- Every grouped ARN lands in at least one list.
- Only ARNs of the input are ever reported tagged.

The grouping skips an ARN without any colon. An ARN with one or two
colons has no fourth field, so `split(':')[3]` raises, and then the whole
grouping returns `None`.
The model follows the code (`Grouping.GroupResourcesByRegion`,
`Scenarios.GroupingAbortsOnShortArn`).

## Model

| member | source | states |
|---|---|---|
| `Text.Split` | resource-tagger.py:30 | `split` always yields at least one field, and no field contains the separator |
| `Text.SplitCount` | resource-tagger.py:30 | there is exactly one more field than there are separators, so field 3 exists exactly when the ARN has at least three colons |
| `Text.JoinSplit` | resource-tagger.py:30 | joining the fields back with the separator gives the original string, so splitting loses nothing |
| `Text.SplitJoin` | resource-tagger.py:30 | splitting a join of separator-free fields gives those fields back (split and join are inverse) |
| `Text.LastField` | resource-tagger.py:44 | `split(d)[-1]` is the separator-free suffix after the last separator, or the whole string when there is no separator |
| `Text.HasInfixIff` | resource-tagger.py:69-70 | the substring test succeeds exactly when the pattern occurs at some position |
| `Arn.ShapeOf` | resource-tagger.py:29-30 | an ARN is skipped exactly when it has no colon, and raises exactly when it has a colon but fewer than three colons; otherwise its key is one of its colon-separated fields |
| `Arn.ShapeOfJoin` | resource-tagger.py:29-30 | an ARN built from four or more colon-free fields is keyed by the fourth; one built from two or three raises |
| `Arn.KeyId` | resource-tagger.py:44 | the KMS key id is a slash-free suffix of the ARN that starts right after a slash, or the whole ARN when it has no slash |
| `Arn.ClientRegion` | resource-tagger.py:64 | the bulk client's region is never empty: it is the region key itself, or `us-east-1` for the empty key |
| `Grouping.GroupResourcesByRegion` | resource-tagger.py:25-39 | returns nothing exactly when some ARN has a colon but no fourth field. Otherwise: the keys are distinct and in order of first appearance; each key's list is exactly the input ARNs with that region, in input order, and is never empty; and the groups hold, with multiplicity, exactly the ARNs that have a region field |
| `Grouping.ScopedArnsMembers` | resource-tagger.py:28-33 | an ARN is grouped exactly when it is in the input and has a region field |
| `Batching.Batches` | resource-tagger.py:65 | there are ceil(n/10) slices; every slice has between 1 and 10 elements, all but the last have exactly 10, and laid end to end they give the list back |
| `Batching.FlattenMembers` | resource-tagger.py:65 | an element is in the concatenated slices exactly when it is in one of the slices |
| `Attempt.KmsSplit` | resource-tagger.py:69-70 | the KMS list holds exactly the batch ARNs containing `:kms:` and the other list exactly the rest; together they hold the batch with multiplicity |
| `Attempt.KmsSplitOrder` | resource-tagger.py:69-70 | both lists keep batch order (each is a subsequence of the batch) |
| `Attempt.KmsRound` | resource-tagger.py:73-77 | the KMS loop's two appends together hold the KMS list exactly, with multiplicity |
| `Attempt.KmsRoundOrder` | resource-tagger.py:73-77 | each of the two appends keeps the order of the KMS list (it is a subsequence of it) |
| `Attempt.KmsRoundDecides` | resource-tagger.py:73-77 | each KMS ARN goes to `Tagged_list` when its call (made with its key id) answers `True`, and to `Not_Tagged_List` otherwise |
| `Attempt.ReportFailures` | resource-tagger.py:87-93 | the failure loop appends the ARNs of the leading readable entries, in order; it stops at the first entry whose logging raises, and it runs to the end exactly when every entry is readable |
| `Attempt.Unreported` | resource-tagger.py:94 | the ARNs appended to `Tagged_list` are exactly the batch ARNs that the failure map does not name |
| `Attempt.UnreportedOrder` | resource-tagger.py:94 | those ARNs come in batch order (a subsequence of the batch), each as often as it occurs in the batch |
| `Attempt.TryBatch` | resource-tagger.py:72-109 | a batch without a non-KMS ARN always completes. Otherwise the attempt is throttled exactly on a `Throttling` client error, fails exactly on any other client error, ends unexpectedly exactly on another exception or an unreadable failure entry, and completes otherwise |
| `Attempt.CompletedReconciles` | resource-tagger.py:78-95 | when the bulk call returns a failure map whose entries can all be logged, the attempt completes; every ARN the map names goes to `Not_Tagged_List` and every batch ARN it does not name to `Tagged_list`; an ARN outside the KMS round is tagged exactly when the map does not name it, and not tagged exactly when it does |
| `Attempt.CompletedAppends` | resource-tagger.py:87-94 | in that case, after the KMS round's appends, exactly the map's ARNs (once each, in map order) are appended to `Not_Tagged_List`, and exactly the batch ARNs it does not name (in batch order, each as often as in the batch) to `Tagged_list` |
| `Attempt.AttemptAppends` | resource-tagger.py:73-94 | the KMS appends come first and are kept, whatever the bulk call does. Nothing outside the batch is appended to `Tagged_list`, and nothing outside the batch and the failure map is appended to `Not_Tagged_List` |
| `Attempt.AttemptTaggedMeaning` | resource-tagger.py:72-109 | an attempt that does not complete appends nothing to `Tagged_list` beyond its KMS round; a throttle, another client error or another exception from the bulk call appends nothing to `Not_Tagged_List` beyond it; an unreadable failure entry leaves only the readable failure ARNs before it appended; so every tagged ARN was accepted by its key call or left unnamed by a completed bulk reply |
| `Attempt.AttemptCovers` | resource-tagger.py:73-95 | after a completed attempt every batch ARN is in at least one of the two lists |
| `Attempt.KmsOnlyBatch` | resource-tagger.py:73-78 | with no non-KMS ARN the attempt completes on the KMS answers alone: each ARN lands in exactly one list, and its own key call's answer decides which |
| `Retry.RetryFrom` | resource-tagger.py:71-112 | at most 3 attempts in all, and at least one if any is left; exhaustion uses up all three; there is one wait per throttle, so one wait fewer than attempts unless the batch is exhausted |
| `Retry.RetryWaits` | resource-tagger.py:96-101 | the throttle that raises the count to k is followed by a wait of 2^k |
| `Retry.BackOffSchedule` | resource-tagger.py:97-101 | from a zero count the waits are a prefix of 2, 4, 8 |
| `Retry.RetryWaitsFollowThrottles` | resource-tagger.py:96-101 | every wait follows a throttled attempt |
| `Retry.RetryExhaustedIff` | resource-tagger.py:71-112 | the `else` branch runs exactly when every remaining attempt is throttled |
| `Retry.RetryLastAttempt` | resource-tagger.py:95-109 | a batch succeeds only after a completed attempt, and fails only after a non-throttling error |
| `Retry.FirstAttemptKept` | resource-tagger.py:73-101 | the first attempt's appends stay at the front of both lists (no rollback) |
| `Retry.RetryGivesUpBatch` | resource-tagger.py:102-112 | a batch that fails or is exhausted ends with the whole batch appended to `Not_Tagged_List` |
| `Retry.RetryTaggedWithin` | resource-tagger.py:71-112 | if no attempt tags anything outside the batch, neither does the loop |
| `Retry.RetryCovers` | resource-tagger.py:71-112 | if every completed attempt covers the batch, every batch ARN is in a list however the loop ends |
| `Retry.ThrottledOnceThenCompleted` | resource-tagger.py:71-101 | one throttle, then success: a single wait of 2, two attempts, and both attempts' appends in order |
| `Retry.ThrottledTwiceThenCompleted` | resource-tagger.py:71-101 | two throttles, then success: waits 2 and 4, three attempts, and all appends in order |
| `Retry.ThrottledThriceExhausted` | resource-tagger.py:71-112 | three throttles: waits 2, 4 and 8, no fourth attempt, and the whole batch appended to `Not_Tagged_List` at the end |
| `Retry.RetryLoop` | resource-tagger.py:68-112 | the `while`/`break`/`else` loop computes the same lists, waits, attempt count and outcome as the recursive definition |
| `Tagger.TagBatch` | resource-tagger.py:67-114 | a batch gets between one and three attempts, and its back-off waits are a prefix of 2, 4, 8 |
| `Tagger.TagAllRegions` | resource-tagger.py:60-118 | the nested region and batch loops build exactly the per-region, per-batch concatenation of appends and sleeps |
| `Tagger.TagResourcesByRegion` | resource-tagger.py:60-118 | every ARN of every group is in at least one returned list, and only ARNs of the groups are reported tagged |
| `Tagger.BatchFacts` | resource-tagger.py:67-112 | one batch puts each of its ARNs in a list and tags nothing outside itself |
| `Tagger.RegionFacts` | resource-tagger.py:65-114 | the same holds for all batches of a region |
| `Tagger.GroupsFacts` | resource-tagger.py:63-118 | the same holds for all regions |
| `Tagger.GroupThenTag` | resource-tagger.py:25-118 | when grouping succeeds, every input ARN with a colon is in a returned list, and every tagged ARN is an input ARN with a colon |
| `Scenarios.GroupingSkipsColonFree` | resource-tagger.py:28-33 | `["a:b:c:d:e", "malformed"]` groups to `{"d": ["a:b:c:d:e"]}` |
| `Scenarios.GroupingAbortsOnShortArn` | resource-tagger.py:29-39 | one ARN `"a:b"` makes the whole grouping return nothing |
| `Scenarios.GlobalResourceKept` | resource-tagger.py:29-34 | an ARN with an empty region field is grouped under `""`, not dropped |
| `Scenarios.KeyArnIsKms` | resource-tagger.py:69 | every ARN whose third colon-separated field is `kms` carries the `:kms:` marker, so it goes to the KMS round |
| `Scenarios.FailureMapBatch` | resource-tagger.py:87-94 | three plain ARNs, with the middle one reported `InvalidArgument`: that one is not tagged, the other two are, in one attempt |
| `Scenarios.ThrottledTwiceThenTagged` | resource-tagger.py:96-101 | throttled twice then accepted: waits 2 and 4, three attempts, the whole batch tagged |
| `Scenarios.ThrottledThrice` | resource-tagger.py:110-112 | throttled three times: waits 2, 4 and 8, exactly three attempts, the whole batch not tagged |
| `Scenarios.ClientErrorIsFatal` | resource-tagger.py:102-105 | any other client error: one attempt, no wait, the whole batch not tagged |
| `Scenarios.RejectedKeyAlsoBulkTagged` | resource-tagger.py:73-94 | a KMS key whose call answers `False` is not tagged, and the other ARN is tagged; the key is also reported tagged by the bulk reply |
| `Scenarios.RetriedKeyTaggedTwice` | resource-tagger.py:71-101 | a key tagged before a throttle is tagged again on the retry, so `Tagged_list` holds it three times |

## Left out

- `get_resources_list` (resource-tagger.py:5-23) is left out. It is Resource Explorer pagination, and its deduplication through a set has no defined order. The grouping takes any sequence of ARNs instead.
- `lambda_handler` (resource-tagger.py:179-193) is left out. It is entry-point wiring with a top-level catch-and-print.
- The construction of the boto3 clients (resource-tagger.py:43, 64) is assumed to succeed. The model records which region each client is built for: the raw region key for KMS, and the fallback-aware one for bulk tagging.
- The tag keys and values sent (resource-tagger.py:49-51, 82-84) are left out. They do not influence any decision.
- The shape of exceptions is reduced to what the code reads. A `ClientError` is reduced to its error code. A failure entry is reduced to its ARN and its optional `ErrorCode` and `ErrorMessage`. A reply without `FailedResourcesMap` counts as any other exception.
- `FailedResourcesMap` is a JSON object, so its keys are distinct. The model's list of entries does not require distinct ARNs.
- `time.sleep` (resource-tagger.py:101, 114) is recorded as the sequence of waits, not executed.
- All `print` logging is left out. Logging matters only through the fields it reads: a failure entry without `ErrorCode`, or without `ErrorMessage` under any code but `InvalidArgument`, raises `KeyError` inside the `try`, and that ends the batch through the generic `except`.
- The commented-out earlier implementation (resource-tagger.py:120-177) is left out. It is dead code.
- Whether a second run yields the same two lists depends on the remote services being idempotent, which the model does not describe.
- `Tagger.TagResourcesByRegion` states "at least one list", not "exactly one list". The code gives no stronger guarantee, because of the missing rollback and the second reconciliation of KMS ARNs; `Scenarios.RetriedKeyTaggedTwice` and `Scenarios.RejectedKeyAlsoBulkTagged` exhibit both effects.

=== FILE: arn.dfy ===
/** What the tagger reads out of an Amazon Resource Name (ARN): the region
    field, the KMS marker and the KMS key id. */
module Arn {

  import opened Text

  /** Region used for the bulk-tagging client when the region key is empty. */
  const FallbackRegion: string := "us-east-1"

  /** The substring that routes an ARN to the KMS-specific tagging call. */
  const KmsMarker: string := ":kms:"

  /** How `group_resources_by_region` treats one identifier: one without a
      colon is skipped, one with a colon but fewer than four colon-separated
      fields makes `split(':')[3]` raise, and any other is keyed by its
      fourth field. */
  datatype Shape = Unscoped | Malformed | Scoped(region: string)

  function ShapeOf(arn: string): (r: Shape)
    ensures r.Unscoped? <==> ':' !in arn
    ensures r.Malformed? <==> ':' in arn && multiset(arn)[':'] < 3
    ensures r.Scoped? ==> ':' !in r.region && r.region in Split(arn, ':')
  {
    SplitCount(arn, ':');
    if ':' !in arn then Unscoped
    else
      var fields := Split(arn, ':');
      if |fields| < 4 then Malformed else Scoped(fields[3])
  }

  /** Reading back an ARN built from colon-free fields: with at least four
      fields it is keyed by the fourth, with two or three it is malformed. */
  lemma {:induction false} ShapeOfJoin(fields: seq<string>)
    requires |fields| >= 2
    requires forall i :: 0 <= i < |fields| ==> ':' !in fields[i]
    ensures |fields| >= 4 ==> ShapeOf(Join(fields, ':')) == Scoped(fields[3])
    ensures |fields| < 4 ==> ShapeOf(Join(fields, ':')) == Malformed
  {
    var arn := Join(fields, ':');
    SplitJoin(fields, ':');
    SplitCount(arn, ':');
    assert ':' in multiset(arn);
  }

  /** `':kms:' in arn`. */
  predicate IsKms(arn: string)
  {
    HasInfix(arn, KmsMarker)
  }

  /** The key id `tag_kms_resource` passes to KMS: `arn.split('/')[-1]`. */
  function KeyId(arn: string): (r: string)
    ensures '/' !in r
    ensures |r| <= |arn| && arn == arn[..|arn| - |r|] + r
    ensures '/' in arn ==> |r| < |arn| && arn[|arn| - |r| - 1] == '/'
    ensures '/' !in arn ==> r == arn
  {
    var r := LastField(arn, '/');
    assert arn == arn[..|arn| - |r|] + arn[|arn| - |r|..];
    r
  }

  /** The region name the bulk-tagging client is built for: the region key,
      or the fallback region for the empty key of global resources. */
  function ClientRegion(regionKey: string): (r: string)
    ensures r != ""
    ensures regionKey != "" ==> r == regionKey
    ensures regionKey == "" ==> r == FallbackRegion
  {
    if regionKey != "" then regionKey else FallbackRegion
  }
}

=== FILE: attempt.dfy ===
/** One pass of the `try` block in `tag_resources_by_region` for one batch:
    the KMS ARNs are tagged one by one, then, if the batch has any other ARN,
    the whole batch goes to one `tag_resources` call whose failures are
    reconciled into the two accumulating lists. */
module Attempt {

  import opened Arn
  import opened RemoteApi

  /** The `ClientError` code that makes the batch be tried again. */
  const ThrottlingCode: string := "Throttling"

  /** The failure code logged as an unsupported resource type; any other code
      also needs an `ErrorMessage` to be logged. */
  const InvalidArgumentCode: string := "InvalidArgument"

  /** What an attempt appends to `Not_Tagged_List` and `Tagged_list`. */
  datatype Lists = Lists(notTagged: seq<string>, tagged: seq<string>)

  /** How control left the `try` block. */
  datatype Exit =
    | Completed                  // reached `break  # Success`
    | Throttled                  // `ClientError` with code `Throttling`
    | ClientFailure(code: string) // any other `ClientError`
    | Unexpected                 // any other exception

  datatype AttemptResult = AttemptResult(lists: Lists, exit: Exit)

  /** `s` can be obtained from `t` by deleting elements. */
  predicate IsSubsequence(s: seq<string>, t: seq<string>)
    decreases |t|
  {
    if |s| == 0 then true
    else if |t| == 0 then false
    else if s[|s| - 1] == t[|t| - 1] then IsSubsequence(s[..|s| - 1], t[..|t| - 1])
    else IsSubsequence(s, t[..|t| - 1])
  }

  /** `[arn for arn in batch if ':kms:' in arn]`. */
  function KmsResources(batch: seq<string>): seq<string>
    decreases |batch|
  {
    if |batch| == 0 then []
    else
      var x := batch[|batch| - 1];
      KmsResources(batch[..|batch| - 1]) + (if IsKms(x) then [x] else [])
  }

  /** `[arn for arn in batch if ':kms:' not in arn]`. */
  function NonKmsResources(batch: seq<string>): seq<string>
    decreases |batch|
  {
    if |batch| == 0 then []
    else
      var x := batch[|batch| - 1];
      NonKmsResources(batch[..|batch| - 1]) + (if IsKms(x) then [] else [x])
  }

  /** The two comprehensions split the batch: the first holds exactly the
      KMS ARNs, the second exactly the others, and together they hold every
      element as often as the batch does. */
  lemma {:induction false} KmsSplit(batch: seq<string>)
    ensures forall x :: x in KmsResources(batch) <==> x in batch && IsKms(x)
    ensures forall x :: x in NonKmsResources(batch) <==> x in batch && !IsKms(x)
    ensures multiset(KmsResources(batch)) + multiset(NonKmsResources(batch)) == multiset(batch)
    decreases |batch|
  {
    if |batch| > 0 {
      var init := batch[..|batch| - 1];
      KmsSplit(init);
      assert batch == init + [batch[|batch| - 1]];
    }
  }

  /** Both comprehensions keep batch order. */
  lemma {:induction false} KmsSplitOrder(batch: seq<string>)
    ensures IsSubsequence(KmsResources(batch), batch)
    ensures IsSubsequence(NonKmsResources(batch), batch)
    decreases |batch|
  {
    if |batch| > 0 {
      var init := batch[..|batch| - 1];
      var x := batch[|batch| - 1];
      KmsSplitOrder(init);
      var k := KmsResources(batch);
      var n := NonKmsResources(batch);
      assert batch[..|batch| - 1] == init;
      if IsKms(x) {
        assert k == KmsResources(init) + [x];
        assert k[..|k| - 1] == KmsResources(init);
        assert n == NonKmsResources(init);
        SubsequenceDropLast(n, batch);
      } else {
        assert n == NonKmsResources(init) + [x];
        assert n[..|n| - 1] == NonKmsResources(init);
        assert k == KmsResources(init);
        SubsequenceDropLast(k, batch);
      }
    }
  }

  /** A subsequence of a prefix is a subsequence of the whole. */
  lemma {:induction false} SubsequenceDropLast(s: seq<string>, t: seq<string>)
    requires |t| > 0 && IsSubsequence(s, t[..|t| - 1])
    ensures IsSubsequence(s, t)
    decreases |t|, |s|
  {
    if |s| > 0 && s[|s| - 1] == t[|t| - 1] {
      SubsequenceWeaken(s, t[..|t| - 1]);
    }
  }

  /** A subsequence of a prefix, extended by the next element, is a
      subsequence of the longer prefix. */
  lemma SubsequenceExtend(s: seq<string>, t: seq<string>)
    requires |t| > 0 && IsSubsequence(s, t[..|t| - 1])
    ensures IsSubsequence(s + [t[|t| - 1]], t)
  {
    assert (s + [t[|t| - 1]])[..|s|] == s;
  }

  /** Dropping the last element keeps a subsequence a subsequence. */
  lemma {:induction false} SubsequenceWeaken(s: seq<string>, t: seq<string>)
    requires |s| > 0 && IsSubsequence(s, t)
    ensures IsSubsequence(s[..|s| - 1], t)
    decreases |t|, |s|
  {
    var s' := s[..|s| - 1];
    if |t| > 0 {
      if s[|s| - 1] != t[|t| - 1] {
        SubsequenceWeaken(s, t[..|t| - 1]);
      }
      SubsequenceDropLast(s', t);
    }
  }

  /** `tag_kms_resource(arn, region)` for the ARN at `position` of the KMS
      list: the KMS client gets the raw region key, the call gets the key id. */
  predicate KeyTagged(remote: Remote, regionKey: string, at: Slot, arn: string, position: nat)
  {
    remote.tagKey(KeyCall(regionKey, KeyId(arn), at, position))
  }

  /** The `for kms_arn in kms_resources` loop: each KMS ARN is appended to
      `Tagged_list` when its `tag_kms_resource` call answers `True` and to
      `Not_Tagged_List` otherwise, so together the two appends hold the KMS
      list exactly. */
  function KmsRound(remote: Remote, regionKey: string, at: Slot, kms: seq<string>): (r: Lists)
    ensures multiset(r.notTagged) + multiset(r.tagged) == multiset(kms)
    decreases |kms|
  {
    if |kms| == 0 then Lists([], [])
    else
      var n := |kms| - 1;
      var p := KmsRound(remote, regionKey, at, kms[..n]);
      assert kms == kms[..n] + [kms[n]];
      if KeyTagged(remote, regionKey, at, kms[n], n) then Lists(p.notTagged, p.tagged + [kms[n]])
      else Lists(p.notTagged + [kms[n]], p.tagged)
  }

  /** Both appends of the KMS loop keep the order of the KMS list. */
  lemma {:induction false} KmsRoundOrder(remote: Remote, regionKey: string, at: Slot, kms: seq<string>)
    ensures var r := KmsRound(remote, regionKey, at, kms);
      IsSubsequence(r.notTagged, kms) && IsSubsequence(r.tagged, kms)
    decreases |kms|
  {
    var r := KmsRound(remote, regionKey, at, kms);
    if |kms| == 0 {
      assert r == Lists([], []);
    } else {
      var n := |kms| - 1;
      var p := KmsRound(remote, regionKey, at, kms[..n]);
      KmsRoundOrder(remote, regionKey, at, kms[..n]);
      OrderStep(p, kms);
      KmsRoundStep(remote, regionKey, at, kms);
    }
  }

  /** The last KMS ARN is appended to one of the two lists. */
  lemma KmsRoundStep(remote: Remote, regionKey: string, at: Slot, kms: seq<string>)
    requires |kms| > 0
    ensures var x, p := kms[|kms| - 1], KmsRound(remote, regionKey, at, kms[..|kms| - 1]);
      || KmsRound(remote, regionKey, at, kms) == Lists(p.notTagged, p.tagged + [x])
      || KmsRound(remote, regionKey, at, kms) == Lists(p.notTagged + [x], p.tagged)
  {
  }

  /** Appending the next element of `t` to one of two subsequences of the
      prefix before it leaves both subsequences of `t`. */
  lemma OrderStep(p: Lists, t: seq<string>)
    requires |t| > 0
    requires IsSubsequence(p.notTagged, t[..|t| - 1]) && IsSubsequence(p.tagged, t[..|t| - 1])
    ensures IsSubsequence(p.notTagged, t) && IsSubsequence(p.tagged + [t[|t| - 1]], t)
    ensures IsSubsequence(p.notTagged + [t[|t| - 1]], t) && IsSubsequence(p.tagged, t)
  {
    SubsequenceExtend(p.tagged, t);
    SubsequenceDropLast(p.notTagged, t);
    SubsequenceExtend(p.notTagged, t);
    SubsequenceDropLast(p.tagged, t);
  }

  /** The answer of the key call for position `i` decides which list the
      ARN at `i` is appended to. */
  lemma {:induction false} KmsRoundDecides(remote: Remote, regionKey: string, at: Slot, kms: seq<string>, i: nat)
    requires i < |kms|
    ensures var r := KmsRound(remote, regionKey, at, kms);
      if KeyTagged(remote, regionKey, at, kms[i], i) then kms[i] in r.tagged else kms[i] in r.notTagged
    decreases |kms|
  {
    var n := |kms| - 1;
    if i < n {
      KmsRoundDecides(remote, regionKey, at, kms[..n], i);
    }
  }

  /** A failure entry the logging at lines 89-92 can read: it has an
      `ErrorCode`, and an `ErrorMessage` unless the code is `InvalidArgument`. */
  predicate Readable(e: FailureEntry)
  {
    e.errorCode.Some? && (e.errorCode.value == InvalidArgumentCode || e.errorMessage.Some?)
  }

  /** The loop over `FailedResourcesMap`: each entry's ARN is appended to
      `Not_Tagged_List` after its log line; a field missing from an entry
      raises before that entry's append.  Returns the appended ARNs and
      whether the loop ran to the end. */
  function ReportFailures(entries: seq<FailureEntry>): (r: (seq<string>, bool))
    ensures |r.0| <= |entries|
    ensures forall i :: 0 <= i < |r.0| ==> r.0[i] == entries[i].arn && Readable(entries[i])
    ensures |r.0| < |entries| ==> !Readable(entries[|r.0|])
    ensures r.1 <==> |r.0| == |entries|
    decreases |entries|
  {
    if |entries| == 0 then ([], true)
    else if !Readable(entries[0]) then ([], false)
    else
      var rest := ReportFailures(entries[1..]);
      ([entries[0].arn] + rest.0, rest.1)
  }

  /** `[arn for arn in batch if arn not in FailedResourcesMap]`. */
  function Unreported(batch: seq<string>, entries: seq<FailureEntry>): (r: seq<string>)
    ensures forall x :: x in r <==> x in batch && forall e :: e in entries ==> e.arn != x
    decreases |batch|
  {
    if |batch| == 0 then []
    else
      var x := batch[|batch| - 1];
      var init := batch[..|batch| - 1];
      assert batch == init + [x];
      Unreported(init, entries) + (if forall e :: e in entries ==> e.arn != x then [x] else [])
  }

  /** The comprehension keeps batch order, and keeps every occurrence of an
      ARN it keeps at all. */
  lemma {:induction false} UnreportedOrder(batch: seq<string>, entries: seq<FailureEntry>)
    ensures var r := Unreported(batch, entries);
      && IsSubsequence(r, batch)
      && forall x :: x in r ==> multiset(r)[x] == multiset(batch)[x]
    decreases |batch|
  {
    if |batch| > 0 {
      var x := batch[|batch| - 1];
      var init := batch[..|batch| - 1];
      var p := Unreported(init, entries);
      UnreportedOrder(init, entries);
      assert batch == init + [x];
      if forall e :: e in entries ==> e.arn != x {
        assert Unreported(batch, entries) == p + [x];
        SubsequenceExtend(p, batch);
      } else {
        assert Unreported(batch, entries) == p;
        SubsequenceDropLast(p, batch);
      }
    }
  }

  /** The request the batch's `tag_resources` call carries. */
  function BulkRequest(regionKey: string, batch: seq<string>, at: Slot): BulkCall
  {
    BulkCall(ClientRegion(regionKey), batch, at)
  }

  /** The reply the batch's `tag_resources` call gets at retry count `attempt`. */
  function BulkReplyAt(remote: Remote, regionKey: string, batchNo: nat, batch: seq<string>, attempt: nat): BulkReply
  {
    remote.tagResources(BulkRequest(regionKey, batch, Slot(regionKey, batchNo, attempt)))
  }

  /** One pass through the `try` block for `batch` at retry count `attempt`.
      A batch of KMS ARNs only makes no bulk call and always completes;
      otherwise the attempt throttles exactly on a `ClientError` with code
      `Throttling`, fails on any other `ClientError`, ends unexpectedly on
      any other exception or on an unreadable failure entry, and completes
      otherwise. */
  function TryBatch(remote: Remote, regionKey: string, batchNo: nat, batch: seq<string>, attempt: nat): (r: AttemptResult)
    ensures NonKmsResources(batch) == [] ==> r.exit == Completed
    ensures var reply := BulkReplyAt(remote, regionKey, batchNo, batch, attempt);
      && (r.exit == Throttled <==> NonKmsResources(batch) != [] && reply == ClientError(ThrottlingCode))
      && (r.exit.ClientFailure? <==> NonKmsResources(batch) != [] && reply.ClientError? && reply.code != ThrottlingCode)
      && (r.exit == Unexpected <==> NonKmsResources(batch) != [] && (reply.OtherError? || (reply.Reply? && !ReportFailures(reply.failed).1)))
  {
    var at := Slot(regionKey, batchNo, attempt);
    var kms := KmsRound(remote, regionKey, at, KmsResources(batch));
    if NonKmsResources(batch) == [] then AttemptResult(kms, Completed)
    else
      match remote.tagResources(BulkRequest(regionKey, batch, at))
      case ClientError(code) =>
        AttemptResult(kms, if code == ThrottlingCode then Throttled else ClientFailure(code))
      case OtherError => AttemptResult(kms, Unexpected)
      case Reply(failed) =>
        var (reported, complete) := ReportFailures(failed);
        if complete then
          AttemptResult(Lists(kms.notTagged + reported, kms.tagged + Unreported(batch, failed)), Completed)
        else
          AttemptResult(Lists(kms.notTagged + reported, kms.tagged), Unexpected)
  }

  /** Within an attempt the KMS appends are made first and are never taken
      back, whatever the bulk call does; nothing outside the batch is ever
      appended to `Tagged_list`, and nothing outside the batch and the
      reply's failure map to `Not_Tagged_List`. */
  lemma AttemptAppends(remote: Remote, regionKey: string, batchNo: nat, batch: seq<string>, attempt: nat)
    ensures var r := TryBatch(remote, regionKey, batchNo, batch, attempt);
      var kms := KmsRound(remote, regionKey, Slot(regionKey, batchNo, attempt), KmsResources(batch));
      && kms.notTagged <= r.lists.notTagged
      && kms.tagged <= r.lists.tagged
      && (forall x :: x in r.lists.tagged ==> x in batch)
      && (forall x :: x in r.lists.notTagged ==> x in batch || x in ReportedArns(BulkReplyAt(remote, regionKey, batchNo, batch, attempt)))
  {
    var r := TryBatch(remote, regionKey, batchNo, batch, attempt);
    var kms := KmsRound(remote, regionKey, Slot(regionKey, batchNo, attempt), KmsResources(batch));
    KmsSplit(batch);
    assert forall x :: x in kms.tagged ==> x in multiset(KmsResources(batch));
    assert forall x :: x in kms.notTagged ==> x in multiset(KmsResources(batch));
    var reply := BulkReplyAt(remote, regionKey, batchNo, batch, attempt);
    if NonKmsResources(batch) != [] && reply.Reply? {
      var reported := ReportFailures(reply.failed).0;
      forall x | x in reported ensures x in ReportedArns(reply) {
        var i :| 0 <= i < |reported| && reported[i] == x;
        assert reply.failed[i] in reply.failed;
      }
    }
  }

  /** An attempt that does not complete appends nothing to `Tagged_list`
      beyond its KMS round; one whose bulk call raises appends nothing to
      `Not_Tagged_List` beyond it either, and one stopped by an unreadable
      failure entry appends only the failure ARNs before that entry.  So every ARN on `Tagged_list`
      was accepted by its own key call, or left unnamed by the failure map
      of a completed bulk call. */
  lemma AttemptTaggedMeaning(remote: Remote, regionKey: string, batchNo: nat, batch: seq<string>, attempt: nat)
    ensures var r := TryBatch(remote, regionKey, batchNo, batch, attempt);
      var kms := KmsRound(remote, regionKey, Slot(regionKey, batchNo, attempt), KmsResources(batch));
      var reply := BulkReplyAt(remote, regionKey, batchNo, batch, attempt);
      && (r.exit != Completed ==> r.lists.tagged == kms.tagged)
      && (r.exit == Throttled || r.exit.ClientFailure? || (r.exit == Unexpected && reply.OtherError?) ==>
            r.lists.notTagged == kms.notTagged)
      && (r.exit == Unexpected && reply.Reply? ==>
            var reported := ReportFailures(reply.failed).0;
            && r.lists.notTagged == kms.notTagged + reported
            && |reported| < |reply.failed|)
      && (forall x :: x in r.lists.tagged ==>
            x in kms.tagged || (r.exit == Completed && x in batch && x !in ReportedArns(reply)))
  {
    var r := TryBatch(remote, regionKey, batchNo, batch, attempt);
    var reply := BulkReplyAt(remote, regionKey, batchNo, batch, attempt);
    if NonKmsResources(batch) != [] && reply.Reply? && ReportFailures(reply.failed).1 {
      forall x | x in Unreported(batch, reply.failed) ensures x !in ReportedArns(reply) {
        assert forall e :: e in reply.failed ==> e.arn != x;
      }
    }
  }

  /** The reconciliation of a bulk reply whose failure entries can all be
      logged: the attempt completes, every ARN the failure map names is
      appended to `Not_Tagged_List`, every batch ARN it does not name to
      `Tagged_list`, and for an ARN outside the KMS round the failure map
      alone decides its list, in both directions (the exact appends are
      `CompletedAppends`). */
  lemma CompletedReconciles(remote: Remote, regionKey: string, batchNo: nat, batch: seq<string>, attempt: nat,
                            failed: seq<FailureEntry>)
    requires NonKmsResources(batch) != []
    requires BulkReplyAt(remote, regionKey, batchNo, batch, attempt) == Reply(failed)
    requires forall i :: 0 <= i < |failed| ==> Readable(failed[i])
    ensures var r := TryBatch(remote, regionKey, batchNo, batch, attempt);
      && r.exit == Completed
      && (forall e :: e in failed ==> e.arn in r.lists.notTagged)
      && (forall x :: x in batch && (forall e :: e in failed ==> e.arn != x) ==> x in r.lists.tagged)
      && (forall x :: x in batch && !IsKms(x) ==>
            && (x in r.lists.tagged <==> forall e :: e in failed ==> e.arn != x)
            && (x in r.lists.notTagged <==> exists e :: e in failed && e.arn == x))
  {
    var r := TryBatch(remote, regionKey, batchNo, batch, attempt);
    var kms := KmsRound(remote, regionKey, Slot(regionKey, batchNo, attempt), KmsResources(batch));
    var reported := ReportFailures(failed).0;
    CompletedAppends(remote, regionKey, batchNo, batch, attempt, failed);
    forall e | e in failed ensures e.arn in r.lists.notTagged {
      var i :| 0 <= i < |failed| && failed[i] == e;
      assert reported[i] == e.arn;
    }
    KmsSplit(batch);
    forall x | x in batch && !IsKms(x)
      ensures x !in kms.notTagged && x !in kms.tagged
      ensures x in reported <==> exists e :: e in failed && e.arn == x
    {
      assert x !in multiset(KmsResources(batch));
      if x in reported {
        var i :| 0 <= i < |reported| && reported[i] == x;
        assert failed[i] in failed;
      }
    }
  }

  /** What a completed bulk reconciliation appends after the KMS round:
      exactly the failure map's ARNs, once each and in map order, to
      `Not_Tagged_List`, and exactly the batch ARNs the map does not name,
      in batch order, to `Tagged_list`. */
  lemma CompletedAppends(remote: Remote, regionKey: string, batchNo: nat, batch: seq<string>, attempt: nat,
                         failed: seq<FailureEntry>)
    requires NonKmsResources(batch) != []
    requires BulkReplyAt(remote, regionKey, batchNo, batch, attempt) == Reply(failed)
    requires forall i :: 0 <= i < |failed| ==> Readable(failed[i])
    ensures var r := TryBatch(remote, regionKey, batchNo, batch, attempt);
      var kms := KmsRound(remote, regionKey, Slot(regionKey, batchNo, attempt), KmsResources(batch));
      && r.lists.notTagged == kms.notTagged + seq(|failed|, i requires 0 <= i < |failed| => failed[i].arn)
      && r.lists.tagged == kms.tagged + Unreported(batch, failed)
  {
    assert ReportFailures(failed).0 == seq(|failed|, i requires 0 <= i < |failed| => failed[i].arn);
  }

  /** A completed attempt has put every ARN of the batch in at least one of
      the two lists: the KMS ARNs by their own calls, the others (and the
      KMS ones again) by the bulk reply. */
  lemma AttemptCovers(remote: Remote, regionKey: string, batchNo: nat, batch: seq<string>, attempt: nat)
    requires TryBatch(remote, regionKey, batchNo, batch, attempt).exit == Completed
    ensures var r := TryBatch(remote, regionKey, batchNo, batch, attempt);
      forall x :: x in batch ==> x in r.lists.notTagged || x in r.lists.tagged
  {
    var r := TryBatch(remote, regionKey, batchNo, batch, attempt);
    var at := Slot(regionKey, batchNo, attempt);
    var kms := KmsRound(remote, regionKey, at, KmsResources(batch));
    KmsSplit(batch);
    if NonKmsResources(batch) == [] {
      forall x | x in batch ensures x in r.lists.notTagged || x in r.lists.tagged {
        assert x in multiset(KmsResources(batch));
      }
    } else {
      var reply := BulkReplyAt(remote, regionKey, batchNo, batch, attempt);
      var failed := reply.failed;
      var reported := ReportFailures(failed).0;
      forall x | x in batch ensures x in r.lists.notTagged || x in r.lists.tagged {
        if exists e :: e in failed && e.arn == x {
          var e :| e in failed && e.arn == x;
          var i :| 0 <= i < |failed| && failed[i] == e;
          assert reported[i] == x;
        }
      }
    }
  }

  /** A batch without a non-KMS ARN is settled by the KMS answers alone:
      every ARN lands in exactly one of the two lists, tagged exactly when
      its key call answers `True`. */
  lemma KmsOnlyBatch(remote: Remote, regionKey: string, batchNo: nat, batch: seq<string>, attempt: nat)
    requires NonKmsResources(batch) == []
    ensures var r := TryBatch(remote, regionKey, batchNo, batch, attempt);
      && r.exit == Completed
      && multiset(r.lists.notTagged) + multiset(r.lists.tagged) == multiset(batch)
      && forall i :: 0 <= i < |batch| ==>
           if KeyTagged(remote, regionKey, Slot(regionKey, batchNo, attempt), batch[i], i)
           then batch[i] in r.lists.tagged else batch[i] in r.lists.notTagged
  {
    KmsOnlyIsBatch(batch);
    forall i | 0 <= i < |batch|
      ensures var at := Slot(regionKey, batchNo, attempt);
        var r := KmsRound(remote, regionKey, at, batch);
        if KeyTagged(remote, regionKey, at, batch[i], i) then batch[i] in r.tagged else batch[i] in r.notTagged
    {
      KmsRoundDecides(remote, regionKey, Slot(regionKey, batchNo, attempt), batch, i);
    }
  }

  /** With no non-KMS ARN, the KMS list is the batch itself. */
  lemma {:induction false} KmsOnlyIsBatch(batch: seq<string>)
    requires NonKmsResources(batch) == []
    ensures KmsResources(batch) == batch
    decreases |batch|
  {
    if |batch| > 0 {
      var init := batch[..|batch| - 1];
      assert NonKmsResources(init) == [];
      KmsOnlyIsBatch(init);
      assert batch == init + [batch[|batch| - 1]];
    }
  }
}

=== FILE: batching.dfy ===
/** Slicing one region's ARN list into the batches of a single
    `tag_resources` call: `[xs[i:i + 10] for i in range(0, len(xs), 10)]`. */
module Batching {

  /** Most ARNs one tagging call receives. */
  const BatchSize: nat := 10

  function Min(a: int, b: int): int
  {
    if a <= b then a else b
  }

  /** The slices laid end to end. */
  function Flatten<T>(slices: seq<seq<T>>): seq<T>
    decreases |slices|
  {
    if |slices| == 0 then [] else Flatten(slices[..|slices| - 1]) + slices[|slices| - 1]
  }

  /** One slice per start index `0, 10, 20, ...` below `|xs|`.  There are
      ceil(|xs| / 10) slices, none empty, all but the last of exactly ten
      elements, and together they are `xs` again. */
  function Batches<T>(xs: seq<T>): (r: seq<seq<T>>)
    ensures (|r| - 1) * BatchSize < |xs| <= |r| * BatchSize
    ensures forall i :: 0 <= i < |r| ==> 0 < |r[i]| <= BatchSize
    ensures forall i :: 0 <= i < |r| - 1 ==> |r[i]| == BatchSize
    ensures Flatten(r) == xs
  {
    var n := (|xs| + BatchSize - 1) / BatchSize;
    var r := seq(n, i requires 0 <= i < n => xs[BatchSize * i .. Min(BatchSize * i + BatchSize, |xs|)]);
    BatchesPrefix(xs, r, n);
    assert r[..n] == r;
    r
  }

  /** The first `k` slices cover the first `10 k` elements (or all of them). */
  lemma {:induction false} BatchesPrefix<T>(xs: seq<T>, r: seq<seq<T>>, k: nat)
    requires k <= |r|
    requires forall i :: 0 <= i < |r| ==> BatchSize * i <= |xs| && r[i] == xs[BatchSize * i .. Min(BatchSize * i + BatchSize, |xs|)]
    ensures Flatten(r[..k]) == xs[..Min(BatchSize * k, |xs|)]
    decreases k
  {
    if k > 0 {
      BatchesPrefix(xs, r, k - 1);
      assert r[..k][..k - 1] == r[..k - 1];
      var lo := BatchSize * (k - 1);
      var hi := Min(BatchSize * k, |xs|);
      assert xs[..hi] == xs[..lo] + xs[lo..hi];
    }
  }

  /** An element of the flattened slices sits in one of the slices, and
      every slice element is in the flattening. */
  lemma {:induction false} FlattenMembers<T>(slices: seq<seq<T>>, x: T)
    ensures x in Flatten(slices) <==> exists i :: 0 <= i < |slices| && x in slices[i]
    decreases |slices|
  {
    if |slices| > 0 {
      var init := slices[..|slices| - 1];
      FlattenMembers(init, x);
      if exists i :: 0 <= i < |slices| && x in slices[i] {
        var i :| 0 <= i < |slices| && x in slices[i];
        if i < |init| {
          assert x in init[i];
        }
      }
      if exists i :: 0 <= i < |init| && x in init[i] {
        var i :| 0 <= i < |init| && x in init[i];
        assert x in slices[i];
      }
    }
  }
}

=== FILE: grouping.dfy ===
/** `group_resources_by_region`: ARNs keyed by their region field, each group
    in input order, groups in order of first appearance (the insertion order
    of a Python dict). */
module Grouping {

  import opened Wrappers
  import opened Arn

  /** One entry of the region dictionary. */
  datatype RegionGroup = RegionGroup(region: string, arns: seq<string>)

  /** The ARNs of `arns` keyed by `region`, in input order. */
  function InRegion(arns: seq<string>, region: string): seq<string>
    decreases |arns|
  {
    if |arns| == 0 then []
    else
      var x := arns[|arns| - 1];
      InRegion(arns[..|arns| - 1], region) + (if ShapeOf(x) == Scoped(region) then [x] else [])
  }

  /** The ARNs that carry a region field, in input order. */
  function ScopedArns(arns: seq<string>): seq<string>
    decreases |arns|
  {
    if |arns| == 0 then []
    else
      var x := arns[|arns| - 1];
      ScopedArns(arns[..|arns| - 1]) + (if ShapeOf(x).Scoped? then [x] else [])
  }

  /** `ScopedArns` keeps exactly the ARNs with a region field. */
  lemma {:induction false} ScopedArnsMembers(arns: seq<string>, x: string)
    ensures x in ScopedArns(arns) <==> x in arns && ShapeOf(x).Scoped?
    decreases |arns|
  {
    if |arns| > 0 {
      ScopedArnsMembers(arns[..|arns| - 1], x);
      assert arns == arns[..|arns| - 1] + [arns[|arns| - 1]];
    }
  }

  /** The region field of each ARN that has one, in input order, repeats kept. */
  function RegionsSeen(arns: seq<string>): seq<string>
    decreases |arns|
  {
    if |arns| == 0 then []
    else
      var x := arns[|arns| - 1];
      RegionsSeen(arns[..|arns| - 1]) + (if ShapeOf(x).Scoped? then [ShapeOf(x).region] else [])
  }

  /** The dictionary's keys, in insertion order. */
  function Regions(groups: seq<RegionGroup>): (r: seq<string>)
    ensures |r| == |groups|
  {
    seq(|groups|, i requires 0 <= i < |groups| => groups[i].region)
  }

  /** The dictionary's lists laid end to end. */
  function Members(groups: seq<RegionGroup>): seq<string>
    decreases |groups|
  {
    if |groups| == 0 then [] else groups[0].arns + Members(groups[1..])
  }

  lemma {:induction false} MembersSnoc(groups: seq<RegionGroup>, g: RegionGroup)
    ensures Members(groups + [g]) == Members(groups) + g.arns
    decreases |groups|
  {
    if |groups| > 0 {
      MembersSnoc(groups[1..], g);
      assert (groups + [g])[1..] == groups[1..] + [g];
    }
  }

  /** The list stored under `region` in the region dictionary, or empty
      when `region` is not a key. */
  function Lookup(groups: seq<RegionGroup>, region: string): seq<string>
    decreases |groups|
  {
    if |groups| == 0 then []
    else if groups[0].region == region then groups[0].arns
    else Lookup(groups[1..], region)
  }

  /** Position of the first occurrence of `v` in `s`. */
  function FirstIndex(s: seq<string>, v: string): (i: nat)
    requires v in s
    ensures i < |s| && s[i] == v && v !in s[..i]
  {
    if s[0] == v then 0
    else
      var i := FirstIndex(s[1..], v);
      assert s[..i + 1] == [s[0]] + s[1..][..i];
      i + 1
  }

  ghost predicate Distinct(s: seq<string>)
  {
    forall i, j :: 0 <= i < j < |s| ==> s[i] != s[j]
  }

  /** Every key occurs in `seen`, and the keys are listed in the order of
      their first occurrences there. */
  ghost predicate OrderedBy(keys: seq<string>, seen: seq<string>)
  {
    && (forall i :: 0 <= i < |keys| ==> keys[i] in seen)
    && (forall i, j :: 0 <= i < j < |keys| ==> FirstIndex(seen, keys[i]) < FirstIndex(seen, keys[j]))
  }

  /** `groups` is the region dictionary built from `arns`: keys distinct, no
      empty list, each key's list is exactly that region's ARNs in input
      order, keys ordered by first appearance, and the lists hold each
      regional ARN exactly once. */
  ghost predicate Represents(groups: seq<RegionGroup>, arns: seq<string>)
  {
    && Distinct(Regions(groups))
    && (forall i :: 0 <= i < |groups| ==> groups[i].arns != [])
    && (forall k :: Lookup(groups, k) == InRegion(arns, k))
    && OrderedBy(Regions(groups), RegionsSeen(arns))
    && multiset(Members(groups)) == multiset(ScopedArns(arns))
  }

  /** `resource_groups[region].append(arn)`, creating the list on first use. */
  function AddTo(groups: seq<RegionGroup>, region: string, arn: string): seq<RegionGroup>
    decreases |groups|
  {
    if |groups| == 0 then [RegionGroup(region, [arn])]
    else if groups[0].region == region then [groups[0].(arns := groups[0].arns + [arn])] + groups[1..]
    else [groups[0]] + AddTo(groups[1..], region, arn)
  }

  /** The loop over the input, left to right; an ARN with a colon but no
      fourth field aborts the whole grouping. */
  function GroupFrom(groups: seq<RegionGroup>, arns: seq<string>): Option<seq<RegionGroup>>
    decreases |arns|
  {
    if |arns| == 0 then Some(groups)
    else
      match ShapeOf(arns[0])
      case Unscoped => GroupFrom(groups, arns[1..])
      case Malformed => None
      case Scoped(region) => GroupFrom(AddTo(groups, region, arns[0]), arns[1..])
  }

  /** `group_resources_by_region`: `None` exactly when some ARN has a colon
      but fewer than four fields (the `IndexError` is caught and nothing is
      returned), otherwise the region dictionary of the input. */
  function GroupResourcesByRegion(arns: seq<string>): (r: Option<seq<RegionGroup>>)
    ensures r.None? <==> exists i :: 0 <= i < |arns| && ShapeOf(arns[i]).Malformed?
    ensures r.Some? ==> Represents(r.value, arns)
  {
    EmptyRepresentsNothing();
    GroupFromCorrect([], [], arns);
    assert [] + arns == arns;
    GroupFrom([], arns)
  }

  // ---------------------------------------------------------------------------
  // Proof of the grouping loop

  lemma EmptyRepresentsNothing()
    ensures Represents([], [])
  {
    forall k ensures Lookup([], k) == InRegion([], k) {
    }
  }

  lemma {:induction false} SeenIff(arns: seq<string>, k: string)
    ensures k in RegionsSeen(arns) <==> InRegion(arns, k) != []
    decreases |arns|
  {
    if |arns| > 0 {
      SeenIff(arns[..|arns| - 1], k);
    }
  }

  lemma {:induction false} LookupNonEmpty(groups: seq<RegionGroup>, k: string)
    requires forall i :: 0 <= i < |groups| ==> groups[i].arns != []
    ensures Lookup(groups, k) != [] <==> k in Regions(groups)
    decreases |groups|
  {
    if |groups| > 0 {
      LookupNonEmpty(groups[1..], k);
      assert Regions(groups) == [groups[0].region] + Regions(groups[1..]);
    }
  }

  lemma {:induction false} AddToRegions(groups: seq<RegionGroup>, k: string, x: string)
    ensures Regions(AddTo(groups, k, x)) == if k in Regions(groups) then Regions(groups) else Regions(groups) + [k]
    decreases |groups|
  {
    var g' := AddTo(groups, k, x);
    if |groups| > 0 {
      AddToRegions(groups[1..], k, x);
      assert Regions(groups) == [groups[0].region] + Regions(groups[1..]);
      assert Regions(g') == [g'[0].region] + Regions(g'[1..]);
    }
  }

  lemma {:induction false} AddToNonEmpty(groups: seq<RegionGroup>, k: string, x: string)
    requires forall i :: 0 <= i < |groups| ==> groups[i].arns != []
    ensures forall i :: 0 <= i < |AddTo(groups, k, x)| ==> AddTo(groups, k, x)[i].arns != []
    decreases |groups|
  {
    if |groups| > 0 {
      AddToNonEmpty(groups[1..], k, x);
    }
  }

  lemma {:induction false} AddToLookup(groups: seq<RegionGroup>, k: string, x: string, k': string)
    ensures Lookup(AddTo(groups, k, x), k') == if k' == k then Lookup(groups, k) + [x] else Lookup(groups, k')
    decreases |groups|
  {
    if |groups| > 0 {
      AddToLookup(groups[1..], k, x, k');
    }
  }

  lemma {:induction false} AddToMembers(groups: seq<RegionGroup>, k: string, x: string)
    ensures multiset(Members(AddTo(groups, k, x))) == multiset(Members(groups)) + multiset{x}
    decreases |groups|
  {
    if |groups| > 0 {
      AddToMembers(groups[1..], k, x);
    }
  }

  /** The first index is the only position holding `u` with no `u` before it. */
  lemma FirstIndexUnique(s: seq<string>, u: string, n: nat)
    requires n < |s| && s[n] == u && u !in s[..n]
    ensures FirstIndex(s, u) == n
  {
    var f := FirstIndex(s, u);
    assert forall m :: 0 <= m < n ==> s[..n][m] == s[m];
    assert forall m :: 0 <= m < f ==> s[..f][m] == s[m];
  }

  lemma FirstIndexSnoc(s: seq<string>, v: string, u: string)
    requires u in s
    ensures FirstIndex(s + [v], u) == FirstIndex(s, u)
  {
    var i := FirstIndex(s, u);
    assert (s + [v])[..i] == s[..i];
    FirstIndexUnique(s + [v], u, i);
  }

  lemma FirstIndexNew(s: seq<string>, v: string)
    requires v !in s
    ensures FirstIndex(s + [v], v) == |s|
  {
    assert (s + [v])[..|s|] == s;
    FirstIndexUnique(s + [v], v, |s|);
  }

  lemma OrderedSnocOld(keys: seq<string>, seen: seq<string>, v: string)
    requires OrderedBy(keys, seen)
    requires v in seen
    ensures OrderedBy(keys, seen + [v])
  {
    forall i | 0 <= i < |keys| ensures FirstIndex(seen + [v], keys[i]) == FirstIndex(seen, keys[i]) {
      FirstIndexSnoc(seen, v, keys[i]);
    }
  }

  lemma OrderedSnocNew(keys: seq<string>, seen: seq<string>, v: string)
    requires OrderedBy(keys, seen)
    requires v !in seen
    ensures OrderedBy(keys + [v], seen + [v])
  {
    var keys' := keys + [v];
    var seen' := seen + [v];
    FirstIndexNew(seen, v);
    forall i | 0 <= i < |keys|
      ensures keys'[i] == keys[i]
      ensures FirstIndex(seen', keys[i]) == FirstIndex(seen, keys[i]) < |seen|
    {
      FirstIndexSnoc(seen, v, keys[i]);
    }
    assert keys'[|keys|] == v;
  }

  /** An ARN without a colon leaves the dictionary as it is. */
  lemma SkipStep(groups: seq<RegionGroup>, arns: seq<string>, x: string)
    requires Represents(groups, arns)
    requires ShapeOf(x).Unscoped?
    ensures Represents(groups, arns + [x])
  {
    var xs := arns + [x];
    assert xs[..|xs| - 1] == arns;
    assert RegionsSeen(xs) == RegionsSeen(arns);
    assert forall k :: InRegion(xs, k) == InRegion(arns, k);
    assert ScopedArns(xs) == ScopedArns(arns);
  }

  /** An ARN with a region field is appended to its region's list. */
  lemma AddStep(groups: seq<RegionGroup>, arns: seq<string>, x: string)
    requires Represents(groups, arns)
    requires ShapeOf(x).Scoped?
    ensures Represents(AddTo(groups, ShapeOf(x).region, x), arns + [x])
  {
    var xs := arns + [x];
    assert xs[..|xs| - 1] == arns;
    var k := ShapeOf(x).region;
    var g' := AddTo(groups, k, x);
    AddToRegions(groups, k, x);
    AddToNonEmpty(groups, k, x);
    AddToMembers(groups, k, x);
    assert RegionsSeen(xs) == RegionsSeen(arns) + [k];
    forall k' ensures Lookup(g', k') == InRegion(xs, k') {
      AddToLookup(groups, k, x, k');
    }
    assert ScopedArns(xs) == ScopedArns(arns) + [x];
    LookupNonEmpty(groups, k);
    SeenIff(arns, k);
    if k in Regions(groups) {
      OrderedSnocOld(Regions(groups), RegionsSeen(arns), k);
    } else {
      OrderedSnocNew(Regions(groups), RegionsSeen(arns), k);
    }
  }

  lemma {:induction false} GroupFromCorrect(groups: seq<RegionGroup>, done: seq<string>, arns: seq<string>)
    requires Represents(groups, done)
    ensures GroupFrom(groups, arns).None? <==> exists i :: 0 <= i < |arns| && ShapeOf(arns[i]).Malformed?
    ensures GroupFrom(groups, arns).Some? ==> Represents(GroupFrom(groups, arns).value, done + arns)
    decreases |arns|
  {
    if |arns| > 0 {
      var x := arns[0];
      assert done + arns == (done + [x]) + arns[1..];
      if ShapeOf(x).Unscoped? {
        SkipStep(groups, done, x);
        GroupFromCorrect(groups, done + [x], arns[1..]);
      } else if ShapeOf(x).Scoped? {
        AddStep(groups, done, x);
        GroupFromCorrect(AddTo(groups, ShapeOf(x).region, x), done + [x], arns[1..]);
      }
      if exists i :: 0 <= i < |arns[1..]| && ShapeOf(arns[1..][i]).Malformed? {
        var i :| 0 <= i < |arns[1..]| && ShapeOf(arns[1..][i]).Malformed?;
        assert ShapeOf(arns[i + 1]).Malformed?;
      }
      if exists i :: 0 <= i < |arns| && ShapeOf(arns[i]).Malformed? {
        var i :| 0 <= i < |arns| && ShapeOf(arns[i]).Malformed?;
        if i > 0 {
          assert ShapeOf(arns[1..][i - 1]).Malformed?;
        }
      }
    } else {
      assert done + arns == done;
    }
  }
}

=== FILE: remote.dfy ===
/** The two tagging services, reduced to what the tagger observes of them.
    Every call is answered by a function of the request, so a scenario (a
    throttle on the first attempt, a rejected key, ...) is a choice of those
    functions. */
module RemoteApi {

  import opened Wrappers

  /** Which attempt a request belongs to: the region key, the batch's
      position in that region's batch list, and `retry_count` when the
      attempt started. */
  datatype Slot = Slot(regionKey: string, batchNo: nat, attempt: nat)

  /** A `kms.tag_resource` call made by `tag_kms_resource`: the region the
      KMS client is built for, the key id, and the position of the ARN in the
      batch's KMS list. */
  datatype KeyCall = KeyCall(region: string, keyId: string, at: Slot, position: nat)

  /** A `tag_resources` call: the region the tagging client is built for and
      the ARN list sent. */
  datatype BulkCall = BulkCall(region: string, arns: seq<string>, at: Slot)

  /** One entry of `FailedResourcesMap`; either field may be missing from the
      response. */
  datatype FailureEntry = FailureEntry(arn: string, errorCode: Option<string>, errorMessage: Option<string>)

  /** What a `tag_resources` call does: return a response listing the failed
      ARNs, raise a `ClientError` with an error code, or raise anything else
      (a response without `FailedResourcesMap` is in this last class too). */
  datatype BulkReply =
    | Reply(failed: seq<FailureEntry>)
    | ClientError(code: string)
    | OtherError

  /** `tagKey` is what `tag_kms_resource` returns: it catches every exception
      of the KMS call and answers `False`. */
  datatype Remote = Remote(tagKey: KeyCall -> bool, tagResources: BulkCall -> BulkReply)

  /** The ARNs a reply reports as failed. */
  function ReportedArns(reply: BulkReply): set<string>
  {
    if reply.Reply? then set e | e in reply.failed :: e.arn else {}
  }
}

=== FILE: retry.dfy ===
/** The bounded retry loop around one batch: `while retry_count < 3`, with
    exponential back-off on throttling, a fatal stop on any other error, and
    the `while ... else` that gives up after the third throttle. */
module Retry {

  import opened Attempt

  /** `while retry_count < 3`: at most three attempts per batch. */
  const MaxAttempts: nat := 3

  /** Terminal states of a batch: the `break` after a completed attempt, the
      `else` branch after the last throttle, or the `break` after a fatal
      error. */
  datatype End = Succeeded | Exhausted | Failed

  /** What one batch appended, the back-off waits it slept in order, and how
      many attempts it made. */
  datatype BatchRun = BatchRun(lists: Lists, waits: seq<nat>, attempts: nat, end: End)

  /** `2 ** n`. */
  function Pow2(n: nat): (r: nat)
    ensures r >= 1
  {
    if n == 0 then 1 else 2 * Pow2(n - 1)
  }

  /** The retry loop entered with `retry_count == retryCount`, where
      `tryAt(k)` is what the attempt made at retry count `k` appends and how
      it ends.  It makes at most `3 - retryCount` attempts (at least one if
      any is left), and sleeps once after every attempt but a successful or
      fatal last one. */
  function RetryFrom(tryAt: nat -> AttemptResult, batch: seq<string>, retryCount: nat): (r: BatchRun)
    requires retryCount <= MaxAttempts
    ensures retryCount + r.attempts <= MaxAttempts
    ensures retryCount < MaxAttempts ==> r.attempts >= 1
    ensures r.end == Exhausted ==> retryCount + r.attempts == MaxAttempts
    ensures |r.waits| == if r.end == Exhausted then r.attempts else r.attempts - 1
    decreases MaxAttempts - retryCount
  {
    if retryCount == MaxAttempts then BatchRun(Lists(batch, []), [], 0, Exhausted)
    else
      var a := tryAt(retryCount);
      match a.exit
      case Completed => BatchRun(a.lists, [], 1, Succeeded)
      case Throttled =>
        var rest := RetryFrom(tryAt, batch, retryCount + 1);
        BatchRun(Lists(a.lists.notTagged + rest.lists.notTagged, a.lists.tagged + rest.lists.tagged),
                 [Pow2(retryCount + 1)] + rest.waits, 1 + rest.attempts, rest.end)
      case _ => BatchRun(Lists(a.lists.notTagged + batch, a.lists.tagged), [], 1, Failed)
  }

  /** The first attempt's appends stay at the front of both lists: nothing
      a batch appends is ever taken back. */
  lemma FirstAttemptKept(tryAt: nat -> AttemptResult, batch: seq<string>, retryCount: nat)
    requires retryCount < MaxAttempts
    ensures var a, r := tryAt(retryCount).lists, RetryFrom(tryAt, batch, retryCount);
      a.notTagged <= r.lists.notTagged && a.tagged <= r.lists.tagged
  {
  }

  /** The throttle that raises the count to `k` is followed by a wait of
      `2 ** k`: from a zero count the waits are a prefix of 2, 4, 8. */
  lemma {:induction false} RetryWaits(tryAt: nat -> AttemptResult, batch: seq<string>, retryCount: nat)
    requires retryCount <= MaxAttempts
    ensures var r := RetryFrom(tryAt, batch, retryCount);
      forall i :: 0 <= i < |r.waits| ==> r.waits[i] == Pow2(retryCount + 1 + i)
    decreases MaxAttempts - retryCount
  {
    if retryCount < MaxAttempts && tryAt(retryCount).exit == Throttled {
      RetryWaits(tryAt, batch, retryCount + 1);
      var r := RetryFrom(tryAt, batch, retryCount);
      var rest := RetryFrom(tryAt, batch, retryCount + 1);
      assert r.waits == [Pow2(retryCount + 1)] + rest.waits;
      forall i | 0 < i < |r.waits|
        ensures r.waits[i] == Pow2(retryCount + 1 + i)
      {
        assert r.waits[i] == rest.waits[i - 1];
      }
    }
  }

  /** A batch's back-off waits, from a zero retry count, are a prefix of
      2, 4, 8. */
  lemma BackOffSchedule(tryAt: nat -> AttemptResult, batch: seq<string>)
    ensures var r := RetryFrom(tryAt, batch, 0);
      forall i :: 0 <= i < |r.waits| ==> r.waits[i] == Pow2(i + 1)
  {
    RetryWaits(tryAt, batch, 0);
  }

  /** Every wait follows a throttled attempt. */
  lemma {:induction false} RetryWaitsFollowThrottles(tryAt: nat -> AttemptResult, batch: seq<string>, retryCount: nat)
    requires retryCount <= MaxAttempts
    ensures var r := RetryFrom(tryAt, batch, retryCount);
      forall a :: retryCount <= a < retryCount + |r.waits| ==> tryAt(a).exit == Throttled
    decreases MaxAttempts - retryCount
  {
    if retryCount < MaxAttempts && tryAt(retryCount).exit == Throttled {
      RetryWaitsFollowThrottles(tryAt, batch, retryCount + 1);
      var r := RetryFrom(tryAt, batch, retryCount);
      var rest := RetryFrom(tryAt, batch, retryCount + 1);
      assert |r.waits| == 1 + |rest.waits|;
      assert forall a :: retryCount + 1 <= a < retryCount + 1 + |rest.waits| ==> tryAt(a).exit == Throttled;
    }
  }

  /** The batch is exhausted exactly when every remaining attempt throttles. */
  lemma {:induction false} RetryExhaustedIff(tryAt: nat -> AttemptResult, batch: seq<string>, retryCount: nat)
    requires retryCount <= MaxAttempts
    ensures RetryFrom(tryAt, batch, retryCount).end == Exhausted <==>
      forall a :: retryCount <= a < MaxAttempts ==> tryAt(a).exit == Throttled
    decreases MaxAttempts - retryCount
  {
    if retryCount < MaxAttempts && tryAt(retryCount).exit == Throttled {
      RetryExhaustedIff(tryAt, batch, retryCount + 1);
    }
  }

  /** A batch succeeds when its last attempt completed and fails when its
      last attempt raised an error other than a throttle. */
  lemma {:induction false} RetryLastAttempt(tryAt: nat -> AttemptResult, batch: seq<string>, retryCount: nat)
    requires retryCount <= MaxAttempts
    ensures var r := RetryFrom(tryAt, batch, retryCount);
      && (r.end == Succeeded ==> tryAt(retryCount + r.attempts - 1).exit == Completed)
      && (r.end == Failed ==> Fatal(tryAt(retryCount + r.attempts - 1).exit))
    decreases MaxAttempts - retryCount
  {
    if retryCount < MaxAttempts && tryAt(retryCount).exit == Throttled {
      RetryLastAttempt(tryAt, batch, retryCount + 1);
    }
  }

  /** An error that ends the batch at once. */
  predicate Fatal(e: Exit)
  {
    e.ClientFailure? || e == Unexpected
  }

  /** A batch that is exhausted or fails ends with the whole batch appended
      to `Not_Tagged_List`, after whatever its attempts appended. */
  lemma {:induction false} RetryGivesUpBatch(tryAt: nat -> AttemptResult, batch: seq<string>, retryCount: nat)
    requires retryCount <= MaxAttempts
    requires RetryFrom(tryAt, batch, retryCount).end != Succeeded
    ensures EndsWith(RetryFrom(tryAt, batch, retryCount).lists.notTagged, batch)
    decreases MaxAttempts - retryCount
  {
    if retryCount < MaxAttempts && tryAt(retryCount).exit == Throttled {
      RetryGivesUpBatch(tryAt, batch, retryCount + 1);
      EndsWithAppend(tryAt(retryCount).lists.notTagged, RetryFrom(tryAt, batch, retryCount + 1).lists.notTagged, batch);
    } else if retryCount < MaxAttempts {
      EndsWithAppend(tryAt(retryCount).lists.notTagged, batch, batch);
    } else {
      EndsWithAppend([], batch, batch);
    }
  }

  /** `s` ends with `t`. */
  predicate EndsWith(s: seq<string>, t: seq<string>)
  {
    |t| <= |s| && s[|s| - |t|..] == t
  }

  /** Appending after a prefix keeps what a sequence ends with; every
      sequence ends with itself. */
  lemma EndsWithAppend(a: seq<string>, s: seq<string>, t: seq<string>)
    requires s == t || EndsWith(s, t)
    ensures EndsWith(a + s, t)
  {
    assert (a + s)[|a + s| - |t|..] == s[|s| - |t|..];
  }

  /** If no attempt appends to `Tagged_list` anything outside the batch,
      neither does the retry loop. */
  lemma {:induction false} RetryTaggedWithin(tryAt: nat -> AttemptResult, batch: seq<string>, retryCount: nat)
    requires retryCount <= MaxAttempts
    requires forall a :: retryCount <= a < MaxAttempts ==> forall x :: x in tryAt(a).lists.tagged ==> x in batch
    ensures forall x :: x in RetryFrom(tryAt, batch, retryCount).lists.tagged ==> x in batch
    decreases MaxAttempts - retryCount
  {
    if retryCount < MaxAttempts && tryAt(retryCount).exit == Throttled {
      RetryTaggedWithin(tryAt, batch, retryCount + 1);
    }
  }

  /** If every completed attempt places each batch ARN in one of the lists,
      then every batch ARN is in one of the lists when the loop ends, however
      it ends: the `else` branch and the fatal branch append the whole batch
      to `Not_Tagged_List`. */
  lemma {:induction false} RetryCovers(tryAt: nat -> AttemptResult, batch: seq<string>, retryCount: nat)
    requires retryCount <= MaxAttempts
    requires forall a :: retryCount <= a < MaxAttempts && tryAt(a).exit == Completed ==>
      forall x :: x in batch ==> x in tryAt(a).lists.notTagged || x in tryAt(a).lists.tagged
    ensures var r := RetryFrom(tryAt, batch, retryCount);
      forall x :: x in batch ==> x in r.lists.notTagged || x in r.lists.tagged
    decreases MaxAttempts - retryCount
  {
    var r := RetryFrom(tryAt, batch, retryCount);
    if retryCount < MaxAttempts && tryAt(retryCount).exit == Throttled {
      RetryCovers(tryAt, batch, retryCount + 1);
    } else if r.end != Succeeded {
      RetryGivesUpBatch(tryAt, batch, retryCount);
      assert r.lists.notTagged[|r.lists.notTagged| - |batch|..] == batch;
      forall x | x in batch ensures x in r.lists.notTagged {
        var i :| 0 <= i < |batch| && batch[i] == x;
        assert r.lists.notTagged[|r.lists.notTagged| - |batch| + i] == x;
      }
    }
  }

  // ---------------------------------------------------------------------------
  // The schedules of a batch from a zero retry count

  /** Completed at once: one attempt, no wait, and that attempt's appends. */
  lemma CompletedAtOnce(tryAt: nat -> AttemptResult, batch: seq<string>)
    requires tryAt(0).exit == Completed
    ensures RetryFrom(tryAt, batch, 0) == BatchRun(tryAt(0).lists, [], 1, Succeeded)
  {
  }

  /** Throttled once, then completed: one wait of 2 seconds, two attempts,
      and both attempts' appends kept in order. */
  lemma ThrottledOnceThenCompleted(tryAt: nat -> AttemptResult, batch: seq<string>)
    requires tryAt(0).exit == Throttled && tryAt(1).exit == Completed
    ensures var a0, a1 := tryAt(0).lists, tryAt(1).lists;
      RetryFrom(tryAt, batch, 0)
        == BatchRun(Lists(a0.notTagged + a1.notTagged, a0.tagged + a1.tagged), [2], 2, Succeeded)
  {
    assert Pow2(1) == 2;
  }

  /** Throttled twice, then completed: waits of 2 and 4 seconds, three
      attempts, and all three attempts' appends kept in order. */
  lemma ThrottledTwiceThenCompleted(tryAt: nat -> AttemptResult, batch: seq<string>)
    requires tryAt(0).exit == Throttled && tryAt(1).exit == Throttled && tryAt(2).exit == Completed
    ensures var a0, a1, a2 := tryAt(0).lists, tryAt(1).lists, tryAt(2).lists;
      RetryFrom(tryAt, batch, 0)
        == BatchRun(Lists(a0.notTagged + a1.notTagged + a2.notTagged, a0.tagged + a1.tagged + a2.tagged),
                    [2, 4], 3, Succeeded)
  {
    var a0, a1, a2 := tryAt(0).lists, tryAt(1).lists, tryAt(2).lists;
    var second := RetryFrom(tryAt, batch, 1);
    assert Pow2(2) == 4;
    assert second == BatchRun(Lists(a1.notTagged + a2.notTagged, a1.tagged + a2.tagged), [4], 2, Succeeded);
    assert Pow2(1) == 2;
    assert a0.notTagged + (a1.notTagged + a2.notTagged) == a0.notTagged + a1.notTagged + a2.notTagged;
    assert a0.tagged + (a1.tagged + a2.tagged) == a0.tagged + a1.tagged + a2.tagged;
  }

  /** Throttled on all three attempts: waits of 2, 4 and 8 seconds, no
      fourth attempt, and the whole batch appended to `Not_Tagged_List`
      after the three attempts' appends. */
  lemma ThrottledThriceExhausted(tryAt: nat -> AttemptResult, batch: seq<string>)
    requires tryAt(0).exit == Throttled && tryAt(1).exit == Throttled && tryAt(2).exit == Throttled
    ensures var a0, a1, a2 := tryAt(0).lists, tryAt(1).lists, tryAt(2).lists;
      RetryFrom(tryAt, batch, 0)
        == BatchRun(Lists(a0.notTagged + a1.notTagged + a2.notTagged + batch, a0.tagged + a1.tagged + a2.tagged),
                    [2, 4, 8], 3, Exhausted)
  {
    var a0, a1, a2 := tryAt(0).lists, tryAt(1).lists, tryAt(2).lists;
    var third := RetryFrom(tryAt, batch, 2);
    assert Pow2(3) == 8;
    assert a2.tagged + [] == a2.tagged;
    assert third == BatchRun(Lists(a2.notTagged + batch, a2.tagged), [8], 1, Exhausted);
    var second := RetryFrom(tryAt, batch, 1);
    assert Pow2(2) == 4;
    assert second == BatchRun(Lists(a1.notTagged + (a2.notTagged + batch), a1.tagged + a2.tagged), [4, 8], 2, Exhausted);
    assert Pow2(1) == 2;
    assert a0.notTagged + (a1.notTagged + (a2.notTagged + batch)) == a0.notTagged + a1.notTagged + a2.notTagged + batch;
    assert a0.tagged + (a1.tagged + a2.tagged) == a0.tagged + a1.tagged + a2.tagged;
  }

  /** The loop's invariant on the two lists: what is accumulated so far
      followed by what the rest of the loop appends is what the whole loop
      appends. */
  ghost predicate ListsInvariant(tryAt: nat -> AttemptResult, batch: seq<string>, retryCount: nat,
                                 notTagged: seq<string>, tagged: seq<string>)
    requires retryCount <= MaxAttempts
  {
    var full := RetryFrom(tryAt, batch, 0);
    var rest := RetryFrom(tryAt, batch, retryCount);
    && full.lists.notTagged == notTagged + rest.lists.notTagged
    && full.lists.tagged == tagged + rest.lists.tagged
  }

  /** The loop's invariant on the waits. */
  ghost predicate WaitsInvariant(tryAt: nat -> AttemptResult, batch: seq<string>, retryCount: nat, waits: seq<nat>)
    requires retryCount <= MaxAttempts
  {
    RetryFrom(tryAt, batch, 0).waits == waits + RetryFrom(tryAt, batch, retryCount).waits
  }

  /** The loop's invariant on the attempt count and the end state. */
  ghost predicate CountInvariant(tryAt: nat -> AttemptResult, batch: seq<string>, retryCount: nat)
    requires retryCount <= MaxAttempts
  {
    var full := RetryFrom(tryAt, batch, 0);
    var rest := RetryFrom(tryAt, batch, retryCount);
    && full.attempts == retryCount + rest.attempts
    && full.end == rest.end
  }

  lemma ThrottleKeepsLists(tryAt: nat -> AttemptResult, batch: seq<string>, retryCount: nat,
                           notTagged: seq<string>, tagged: seq<string>)
    requires retryCount < MaxAttempts
    requires tryAt(retryCount).exit == Throttled
    requires ListsInvariant(tryAt, batch, retryCount, notTagged, tagged)
    ensures var a := tryAt(retryCount);
      ListsInvariant(tryAt, batch, retryCount + 1, notTagged + a.lists.notTagged, tagged + a.lists.tagged)
  {
    var a := tryAt(retryCount);
    var rest := RetryFrom(tryAt, batch, retryCount + 1);
    assert (notTagged + a.lists.notTagged) + rest.lists.notTagged == notTagged + (a.lists.notTagged + rest.lists.notTagged);
    assert (tagged + a.lists.tagged) + rest.lists.tagged == tagged + (a.lists.tagged + rest.lists.tagged);
  }

  lemma ThrottleKeepsWaits(tryAt: nat -> AttemptResult, batch: seq<string>, retryCount: nat, waits: seq<nat>)
    requires retryCount < MaxAttempts
    requires tryAt(retryCount).exit == Throttled
    requires WaitsInvariant(tryAt, batch, retryCount, waits)
    ensures WaitsInvariant(tryAt, batch, retryCount + 1, waits + [Pow2(retryCount + 1)])
  {
    var cur := RetryFrom(tryAt, batch, retryCount);
    var rest := RetryFrom(tryAt, batch, retryCount + 1);
    var w := Pow2(retryCount + 1);
    assert cur.waits == [w] + rest.waits;
    assert (waits + [w]) + rest.waits == waits + ([w] + rest.waits);
  }

  lemma ThrottleKeepsCount(tryAt: nat -> AttemptResult, batch: seq<string>, retryCount: nat)
    requires retryCount < MaxAttempts
    requires tryAt(retryCount).exit == Throttled
    requires CountInvariant(tryAt, batch, retryCount)
    ensures CountInvariant(tryAt, batch, retryCount + 1)
  {
  }

  /** Leaving the loop by the `break` after a completed attempt. */
  lemma CompletedEndsRun(tryAt: nat -> AttemptResult, batch: seq<string>, retryCount: nat,
                         notTagged: seq<string>, tagged: seq<string>, waits: seq<nat>)
    requires retryCount < MaxAttempts
    requires tryAt(retryCount).exit == Completed
    requires ListsInvariant(tryAt, batch, retryCount, notTagged, tagged)
    requires WaitsInvariant(tryAt, batch, retryCount, waits)
    requires CountInvariant(tryAt, batch, retryCount)
    ensures var a := tryAt(retryCount);
      BatchRun(Lists(notTagged + a.lists.notTagged, tagged + a.lists.tagged), waits, retryCount + 1, Succeeded)
        == RetryFrom(tryAt, batch, 0)
  {
    assert waits + [] == waits;
  }

  /** Leaving the loop by the `break` after a fatal error. */
  lemma FatalEndsRun(tryAt: nat -> AttemptResult, batch: seq<string>, retryCount: nat,
                     notTagged: seq<string>, tagged: seq<string>, waits: seq<nat>)
    requires retryCount < MaxAttempts
    requires Fatal(tryAt(retryCount).exit)
    requires ListsInvariant(tryAt, batch, retryCount, notTagged, tagged)
    requires WaitsInvariant(tryAt, batch, retryCount, waits)
    requires CountInvariant(tryAt, batch, retryCount)
    ensures var a := tryAt(retryCount);
      BatchRun(Lists(notTagged + a.lists.notTagged + batch, tagged + a.lists.tagged), waits, retryCount + 1, Failed)
        == RetryFrom(tryAt, batch, 0)
  {
    var a := tryAt(retryCount);
    assert notTagged + a.lists.notTagged + batch == notTagged + (a.lists.notTagged + batch);
    assert waits + [] == waits;
  }

  /** Leaving the loop through its `else` branch. */
  lemma ExhaustedEndsRun(tryAt: nat -> AttemptResult, batch: seq<string>,
                         notTagged: seq<string>, tagged: seq<string>, waits: seq<nat>)
    requires ListsInvariant(tryAt, batch, MaxAttempts, notTagged, tagged)
    requires WaitsInvariant(tryAt, batch, MaxAttempts, waits)
    requires CountInvariant(tryAt, batch, MaxAttempts)
    ensures BatchRun(Lists(notTagged + batch, tagged), waits, MaxAttempts, Exhausted) == RetryFrom(tryAt, batch, 0)
  {
    assert waits + [] == waits;
    assert tagged + [] == tagged;
  }

  /** The loop as the source writes it, with `break` and `while ... else`;
      it computes the same run as `RetryFrom` from a zero retry count. */
  method RetryLoop(tryAt: nat -> AttemptResult, batch: seq<string>) returns (run: BatchRun)
    ensures run == RetryFrom(tryAt, batch, 0)
  {
    var notTagged: seq<string> := [];
    var tagged: seq<string> := [];
    var waits: seq<nat> := [];
    var retryCount := 0;
    var broke := false;
    run := BatchRun(Lists([], []), [], 0, Exhausted);
    while retryCount < MaxAttempts
      invariant retryCount <= MaxAttempts
      invariant ListsInvariant(tryAt, batch, retryCount, notTagged, tagged)
      invariant WaitsInvariant(tryAt, batch, retryCount, waits)
      invariant CountInvariant(tryAt, batch, retryCount)
      decreases MaxAttempts - retryCount
    {
      var a := tryAt(retryCount);
      if a.exit == Completed {
        CompletedEndsRun(tryAt, batch, retryCount, notTagged, tagged, waits);
        run := BatchRun(Lists(notTagged + a.lists.notTagged, tagged + a.lists.tagged), waits, retryCount + 1, Succeeded);
        broke := true;
        break;
      } else if a.exit == Throttled {
        ThrottleKeepsLists(tryAt, batch, retryCount, notTagged, tagged);
        ThrottleKeepsWaits(tryAt, batch, retryCount, waits);
        ThrottleKeepsCount(tryAt, batch, retryCount);
        notTagged := notTagged + a.lists.notTagged;
        tagged := tagged + a.lists.tagged;
        retryCount := retryCount + 1;
        waits := waits + [Pow2(retryCount)];
      } else {
        FatalEndsRun(tryAt, batch, retryCount, notTagged, tagged, waits);
        run := BatchRun(Lists(notTagged + a.lists.notTagged + batch, tagged + a.lists.tagged), waits, retryCount + 1, Failed);
        broke := true;
        break;
      }
    }
    if !broke {
      ExhaustedEndsRun(tryAt, batch, notTagged, tagged, waits);
      run := BatchRun(Lists(notTagged + batch, tagged), waits, retryCount, Exhausted);
    }
  }
}

=== FILE: scenarios.dfy ===
/** Concrete runs of the tagger: the grouping of a small input, one batch
    with a failure map, the throttling schedules, a rejected KMS key, and
    two consequences of appending without rollback. */
module Scenarios {

  import opened Wrappers
  import opened Text
  import opened Arn
  import opened Grouping
  import opened RemoteApi
  import opened Attempt
  import opened Retry
  import opened Tagger

  // ---------------------------------------------------------------------------
  // Grouping

  lemma FiveFieldArn()
    ensures ShapeOf("a:b:c:d:e") == Scoped("d")
  {
    var fields := ["a", "b", "c", "d", "e"];
    assert Join(fields[3..], ':') == "d:e";
    assert Join(fields[1..], ':') == "b:c:d:e";
    assert Join(fields, ':') == "a:b:c:d:e";
    ShapeOfJoin(fields);
  }

  lemma ColonFreeWord()
    ensures ShapeOf("malformed") == Unscoped
  {
    assert ':' !in "malformed";
  }

  /** An identifier without a colon is skipped; one with five fields is
      keyed by its fourth. */
  lemma GroupingSkipsColonFree()
    ensures GroupResourcesByRegion(["a:b:c:d:e", "malformed"]) == Some([RegionGroup("d", ["a:b:c:d:e"])])
  {
    FiveFieldArn();
    ColonFreeWord();
    var arns := ["a:b:c:d:e", "malformed"];
    assert arns[1..] == ["malformed"];
    assert GroupFrom([], arns) == GroupFrom([RegionGroup("d", ["a:b:c:d:e"])], ["malformed"]);
  }

  /** An input with a colon but no fourth field makes the whole grouping
      return nothing, even when the other identifiers are well formed. */
  lemma GroupingAbortsOnShortArn()
    ensures GroupResourcesByRegion(["a:b:c:d:e", "a:b"]) == None
  {
    TwoFieldArn();
    var arns := ["a:b:c:d:e", "a:b"];
    assert ShapeOf(arns[1]).Malformed?;
  }

  lemma TwoFieldArn()
    ensures ShapeOf("a:b") == Malformed
  {
    assert Join(["a", "b"], ':') == "a:b";
    ShapeOfJoin(["a", "b"]);
  }

  /** A global resource (an ARN whose fourth field is empty) is grouped
      under the empty key, not dropped. */
  lemma GlobalResourceKept(fields: seq<string>)
    requires |fields| >= 4 && fields[3] == ""
    requires forall i :: 0 <= i < |fields| ==> ':' !in fields[i]
    ensures var arn := Join(fields, ':');
      GroupResourcesByRegion([arn]) == Some([RegionGroup("", [arn])])
  {
    ShapeOfJoin(fields);
    var arn := Join(fields, ':');
    assert [arn][1..] == [];
    assert GroupFrom([], [arn]) == GroupFrom([RegionGroup("", [arn])], []);
  }

  // ---------------------------------------------------------------------------
  // One batch

  /** Every ARN whose service field (the third) is `kms` is routed to KMS:
      the marker `:kms:` starts at the colon that ends the second field. */
  lemma KeyArnIsKms(fields: seq<string>)
    requires |fields| >= 4 && fields[2] == "kms"
    ensures IsKms(Join(fields, ':'))
  {
    var tail := Join(fields[3..], ':');
    assert fields[2..][1..] == fields[3..];
    assert Join(fields[2..], ':') == "kms" + [':'] + tail;
    assert fields[1..][1..] == fields[2..];
    assert Join(fields[1..], ':') == fields[1] + [':'] + Join(fields[2..], ':');
    var pre := fields[0] + [':'] + fields[1];
    var arn := Join(fields, ':');
    assert arn == pre + KmsMarker + tail;
    assert arn[|pre|..|pre| + |KmsMarker|] == KmsMarker;
    InfixAt(arn, KmsMarker, |pre|);
  }

  /** A batch without a KMS ARN goes to the bulk call whole. */
  lemma {:induction false} NoKmsArns(batch: seq<string>)
    requires forall i :: 0 <= i < |batch| ==> !IsKms(batch[i])
    ensures KmsResources(batch) == []
    ensures NonKmsResources(batch) == batch
    decreases |batch|
  {
    if |batch| > 0 {
      var init := batch[..|batch| - 1];
      NoKmsArns(init);
      assert batch == init + [batch[|batch| - 1]];
    }
  }

  /** A failure map with one readable entry appends that entry's ARN and
      runs to the end. */
  lemma SingleRejection(y: string)
    ensures ReportFailures([FailureEntry(y, Some(InvalidArgumentCode), None)]) == ([y], true)
  {
    var failed := [FailureEntry(y, Some(InvalidArgumentCode), None)];
    assert failed[1..] == [];
    var rest := ReportFailures(failed[1..]);
    assert rest == ([], true);
    assert [failed[0].arn] + rest.0 == [y];
  }

  /** A three-ARN batch of non-KMS resources whose reply reports the middle
      one as an unsupported type: that ARN is not tagged, the other two are,
      in a single attempt and with no back-off. */
  lemma FailureMapBatch(remote: Remote, regionKey: string, x: string, y: string, z: string)
    requires !IsKms(x) && !IsKms(y) && !IsKms(z)
    requires x != y && z != y
    requires BulkReplyAt(remote, regionKey, 0, [x, y, z], 0) == Reply([FailureEntry(y, Some(InvalidArgumentCode), None)])
    ensures TagBatch(remote, regionKey, 0, [x, y, z]) == BatchRun(Lists([y], [x, z]), [], 1, Succeeded)
  {
    var batch := [x, y, z];
    FailureMapAttempt(remote, regionKey, x, y, z);
    CompletedAtOnce(AttemptsOf(remote, regionKey, 0, batch), batch);
  }

  /** The single attempt of that batch. */
  lemma FailureMapAttempt(remote: Remote, regionKey: string, x: string, y: string, z: string)
    requires !IsKms(x) && !IsKms(y) && !IsKms(z)
    requires x != y && z != y
    requires BulkReplyAt(remote, regionKey, 0, [x, y, z], 0) == Reply([FailureEntry(y, Some(InvalidArgumentCode), None)])
    ensures TryBatch(remote, regionKey, 0, [x, y, z], 0) == AttemptResult(Lists([y], [x, z]), Completed)
  {
    var batch := [x, y, z];
    NoKmsArns(batch);
    SingleRejection(y);
    OthersUnreported(x, y, z);
    assert KmsRound(remote, regionKey, Slot(regionKey, 0, 0), []) == Lists([], []);
  }

  /** The ARNs a one-entry failure map does not name are tagged. */
  lemma OthersUnreported(x: string, y: string, z: string)
    requires x != y && z != y
    ensures Unreported([x, y, z], [FailureEntry(y, Some(InvalidArgumentCode), None)]) == [x, z]
  {
    var batch := [x, y, z];
    var failed := [FailureEntry(y, Some(InvalidArgumentCode), None)];
    assert forall e :: e in failed ==> e.arn == y;
    assert batch[..2] == [x, y] && batch[..2][..1] == [x] && [x][..0] == [];
    assert Unreported([x], failed) == [x];
    assert Unreported([x, y], failed) == [x];
  }

  /** An empty failure map leaves the whole batch to be tagged. */
  lemma {:induction false} NothingReported(batch: seq<string>)
    ensures Unreported(batch, []) == batch
    decreases |batch|
  {
    if |batch| > 0 {
      NothingReported(batch[..|batch| - 1]);
      assert batch == batch[..|batch| - 1] + [batch[|batch| - 1]];
    }
  }

  // ---------------------------------------------------------------------------
  // Throttling

  /** A throttled attempt on a batch without KMS ARNs appends nothing. */
  lemma PlainBatchThrottled(remote: Remote, regionKey: string, batchNo: nat, batch: seq<string>, attempt: nat)
    requires batch != [] && forall i :: 0 <= i < |batch| ==> !IsKms(batch[i])
    requires BulkReplyAt(remote, regionKey, batchNo, batch, attempt) == ClientError(ThrottlingCode)
    ensures TryBatch(remote, regionKey, batchNo, batch, attempt) == AttemptResult(Lists([], []), Throttled)
  {
    NoKmsArns(batch);
  }

  /** An attempt on a batch without KMS ARNs whose reply lists no failure
      tags the whole batch. */
  lemma PlainBatchAccepted(remote: Remote, regionKey: string, batchNo: nat, batch: seq<string>, attempt: nat)
    requires batch != [] && forall i :: 0 <= i < |batch| ==> !IsKms(batch[i])
    requires BulkReplyAt(remote, regionKey, batchNo, batch, attempt) == Reply([])
    ensures TryBatch(remote, regionKey, batchNo, batch, attempt) == AttemptResult(Lists([], batch), Completed)
  {
    NoKmsArns(batch);
    NothingReported(batch);
  }

  /** Throttled twice, then accepted: waits of 2 and 4, three attempts, and
      the whole batch tagged. */
  lemma ThrottledTwiceThenTagged(remote: Remote, regionKey: string, batchNo: nat, batch: seq<string>)
    requires batch != [] && forall i :: 0 <= i < |batch| ==> !IsKms(batch[i])
    requires BulkReplyAt(remote, regionKey, batchNo, batch, 0) == ClientError(ThrottlingCode)
    requires BulkReplyAt(remote, regionKey, batchNo, batch, 1) == ClientError(ThrottlingCode)
    requires BulkReplyAt(remote, regionKey, batchNo, batch, 2) == Reply([])
    ensures TagBatch(remote, regionKey, batchNo, batch) == BatchRun(Lists([], batch), [2, 4], 3, Succeeded)
  {
    PlainBatchThrottled(remote, regionKey, batchNo, batch, 0);
    PlainBatchThrottled(remote, regionKey, batchNo, batch, 1);
    PlainBatchAccepted(remote, regionKey, batchNo, batch, 2);
    ThrottledTwiceThenCompleted(AttemptsOf(remote, regionKey, batchNo, batch), batch);
    assert [] + [] + batch == batch;
  }

  /** Throttled on every attempt: three attempts and no fourth, waits of 2,
      4 and 8, and the whole batch not tagged. */
  lemma ThrottledThrice(remote: Remote, regionKey: string, batchNo: nat, batch: seq<string>)
    requires batch != [] && forall i :: 0 <= i < |batch| ==> !IsKms(batch[i])
    requires forall a :: 0 <= a < MaxAttempts ==> BulkReplyAt(remote, regionKey, batchNo, batch, a) == ClientError(ThrottlingCode)
    ensures TagBatch(remote, regionKey, batchNo, batch) == BatchRun(Lists(batch, []), [2, 4, 8], 3, Exhausted)
  {
    PlainBatchThrottled(remote, regionKey, batchNo, batch, 0);
    PlainBatchThrottled(remote, regionKey, batchNo, batch, 1);
    PlainBatchThrottled(remote, regionKey, batchNo, batch, 2);
    ThrottledThriceExhausted(AttemptsOf(remote, regionKey, batchNo, batch), batch);
    assert [] + [] + [] + batch == batch;
  }

  /** Any other client error stops the batch at once: one attempt, no wait,
      and the whole batch not tagged. */
  lemma ClientErrorIsFatal(remote: Remote, regionKey: string, batchNo: nat, batch: seq<string>, code: string)
    requires batch != [] && forall i :: 0 <= i < |batch| ==> !IsKms(batch[i])
    requires code != ThrottlingCode
    requires BulkReplyAt(remote, regionKey, batchNo, batch, 0) == ClientError(code)
    ensures TagBatch(remote, regionKey, batchNo, batch) == BatchRun(Lists(batch, []), [], 1, Failed)
  {
    NoKmsArns(batch);
    var tryAt := AttemptsOf(remote, regionKey, batchNo, batch);
    assert tryAt(0) == AttemptResult(Lists([], []), ClientFailure(code));
  }

  // ---------------------------------------------------------------------------
  // KMS keys

  /** A batch of one KMS key followed by one other ARN. */
  lemma KeyThenOther(key: string, other: string)
    requires IsKms(key) && !IsKms(other)
    ensures KmsResources([key, other]) == [key]
    ensures NonKmsResources([key, other]) == [other]
  {
    var batch := [key, other];
    assert batch[..1] == [key] && [key][..0] == [];
    assert KmsResources([key]) == [key];
    assert NonKmsResources([key]) == [];
  }

  /** The KMS round of a lone key follows the key call's answer. */
  lemma LoneKeyRound(remote: Remote, regionKey: string, at: Slot, key: string)
    ensures KmsRound(remote, regionKey, at, [key]) ==
      if KeyTagged(remote, regionKey, at, key, 0) then Lists([], [key]) else Lists([key], [])
  {
    assert [key][..0] == [];
    assert KmsRound(remote, regionKey, at, []) == Lists([], []);
  }

  /** A KMS key whose call answers `False` is not tagged, while the other
      ARN of the batch is; because the bulk call is sent the whole batch,
      the key is also reported tagged by the bulk reply. */
  lemma RejectedKeyAlsoBulkTagged(remote: Remote, regionKey: string, key: string, other: string)
    requires IsKms(key) && !IsKms(other)
    requires !KeyTagged(remote, regionKey, Slot(regionKey, 0, 0), key, 0)
    requires BulkReplyAt(remote, regionKey, 0, [key, other], 0) == Reply([])
    ensures TagBatch(remote, regionKey, 0, [key, other]) == BatchRun(Lists([key], [key, other]), [], 1, Succeeded)
  {
    var batch := [key, other];
    RejectedKeyAttempt(remote, regionKey, key, other);
    CompletedAtOnce(AttemptsOf(remote, regionKey, 0, batch), batch);
  }

  /** The single attempt of that batch: the key on both lists. */
  lemma RejectedKeyAttempt(remote: Remote, regionKey: string, key: string, other: string)
    requires IsKms(key) && !IsKms(other)
    requires !KeyTagged(remote, regionKey, Slot(regionKey, 0, 0), key, 0)
    requires BulkReplyAt(remote, regionKey, 0, [key, other], 0) == Reply([])
    ensures TryBatch(remote, regionKey, 0, [key, other], 0) == AttemptResult(Lists([key], [key, other]), Completed)
  {
    KeyThenOther(key, other);
    NothingReported([key, other]);
    LoneKeyRound(remote, regionKey, Slot(regionKey, 0, 0), key);
    assert KmsRound(remote, regionKey, Slot(regionKey, 0, 0), [key]) == Lists([key], []);
    assert ReportFailures([]) == ([], true);
  }

  /** A throttled attempt on a key whose call answers `True` and one other
      ARN keeps the key's `Tagged_list` append. */
  lemma TaggedKeyThrottled(remote: Remote, regionKey: string, key: string, other: string, attempt: nat)
    requires IsKms(key) && !IsKms(other)
    requires KeyTagged(remote, regionKey, Slot(regionKey, 0, attempt), key, 0)
    requires BulkReplyAt(remote, regionKey, 0, [key, other], attempt) == ClientError(ThrottlingCode)
    ensures TryBatch(remote, regionKey, 0, [key, other], attempt) == AttemptResult(Lists([], [key]), Throttled)
  {
    KeyThenOther(key, other);
    LoneKeyRound(remote, regionKey, Slot(regionKey, 0, attempt), key);
  }

  /** A completed attempt on the same batch with an empty failure map
      appends the key twice: once for its own call, once from the bulk
      reply. */
  lemma TaggedKeyCompleted(remote: Remote, regionKey: string, key: string, other: string, attempt: nat)
    requires IsKms(key) && !IsKms(other)
    requires KeyTagged(remote, regionKey, Slot(regionKey, 0, attempt), key, 0)
    requires BulkReplyAt(remote, regionKey, 0, [key, other], attempt) == Reply([])
    ensures TryBatch(remote, regionKey, 0, [key, other], attempt) == AttemptResult(Lists([], [key, key, other]), Completed)
  {
    KeyThenOther(key, other);
    NothingReported([key, other]);
    LoneKeyRound(remote, regionKey, Slot(regionKey, 0, attempt), key);
  }

  /** A KMS key tagged on an attempt that is then throttled is tagged again
      on the retry: appends are never rolled back, so `Tagged_list` can hold
      an ARN more than once. */
  lemma RetriedKeyTaggedTwice(remote: Remote, regionKey: string, key: string, other: string)
    requires IsKms(key) && !IsKms(other)
    requires KeyTagged(remote, regionKey, Slot(regionKey, 0, 0), key, 0)
    requires KeyTagged(remote, regionKey, Slot(regionKey, 0, 1), key, 0)
    requires BulkReplyAt(remote, regionKey, 0, [key, other], 0) == ClientError(ThrottlingCode)
    requires BulkReplyAt(remote, regionKey, 0, [key, other], 1) == Reply([])
    ensures TagBatch(remote, regionKey, 0, [key, other]) == BatchRun(Lists([], [key, key, key, other]), [2], 2, Succeeded)
  {
    var batch := [key, other];
    var tryAt := AttemptsOf(remote, regionKey, 0, batch);
    TaggedKeyThrottled(remote, regionKey, key, other, 0);
    TaggedKeyCompleted(remote, regionKey, key, other, 1);
    ThrottleThenRetagged(tryAt, batch, key, other);
  }

  /** The retry loop over a throttled attempt that tagged `key` and a
      completed one that tagged `key`, `key` and `other`. */
  lemma ThrottleThenRetagged(tryAt: nat -> AttemptResult, batch: seq<string>, key: string, other: string)
    requires tryAt(0) == AttemptResult(Lists([], [key]), Throttled)
    requires tryAt(1) == AttemptResult(Lists([], [key, key, other]), Completed)
    ensures RetryFrom(tryAt, batch, 0) == BatchRun(Lists([], [key, key, key, other]), [2], 2, Succeeded)
  {
    ThrottledOnceThenCompleted(tryAt, batch);
    assert [key] + [key, key, other] == [key, key, key, other];
  }
}

=== FILE: tagger.dfy ===
/** `tag_resources_by_region`: every region's list is cut into batches, each
    batch goes through the retry loop, and the appends of all batches, in
    dictionary order and then batch order, make up the two returned lists. */
module Tagger {

  import opened Arn
  import opened Grouping
  import opened Batching
  import opened RemoteApi
  import opened Attempt
  import opened Retry

  /** `time.sleep(1)` after every batch. */
  const BatchPause: nat := 1

  /** The two lists and every sleep taken, in order. */
  datatype Report = Report(notTagged: seq<string>, tagged: seq<string>, sleeps: seq<nat>)

  /** Appending the later report's lists and sleeps to the earlier one's. */
  function Then(a: Report, b: Report): Report
  {
    Report(a.notTagged + b.notTagged, a.tagged + b.tagged, a.sleeps + b.sleeps)
  }

  /** The attempts of batch `batchNo` of region `regionKey`, by retry count. */
  function AttemptsOf(remote: Remote, regionKey: string, batchNo: nat, batch: seq<string>): nat -> AttemptResult
  {
    (a: nat) => TryBatch(remote, regionKey, batchNo, batch, a)
  }

  /** One batch through the retry loop: one to three attempts, and back-off
      waits that are a prefix of 2, 4, 8. */
  function TagBatch(remote: Remote, regionKey: string, batchNo: nat, batch: seq<string>): (r: BatchRun)
    ensures 1 <= r.attempts <= MaxAttempts
    ensures |r.waits| < r.attempts || r.end == Exhausted
    ensures forall i :: 0 <= i < |r.waits| ==> r.waits[i] == Pow2(i + 1)
  {
    var tryAt := AttemptsOf(remote, regionKey, batchNo, batch);
    BackOffSchedule(tryAt, batch);
    RetryFrom(tryAt, batch, 0)
  }

  /** What one batch contributes: its appends, its back-off waits, then the
      one-second pause. */
  function BatchReport(run: BatchRun): Report
  {
    Report(run.lists.notTagged, run.lists.tagged, run.waits + [BatchPause])
  }

  /** The batches of one region, in order, numbered from zero. */
  function TagRegion(remote: Remote, regionKey: string, batches: seq<seq<string>>): Report
    decreases |batches|
  {
    if |batches| == 0 then Report([], [], [])
    else
      var n := |batches| - 1;
      Then(TagRegion(remote, regionKey, batches[..n]), BatchReport(TagBatch(remote, regionKey, n, batches[n])))
  }

  /** All regions, in dictionary order. */
  function TagGroups(remote: Remote, groups: seq<RegionGroup>): Report
    decreases |groups|
  {
    if |groups| == 0 then Report([], [], [])
    else
      var n := |groups| - 1;
      Then(TagGroups(remote, groups[..n]), TagRegion(remote, groups[n].region, Batches(groups[n].arns)))
  }

  /** `tag_resources_by_region`, returning `(Not_Tagged_List, Tagged_list)` in
      that order.  Every ARN of every group ends up in at least one of the two
      lists, and only ARNs of the groups are ever reported tagged. */
  function TagResourcesByRegion(remote: Remote, groups: seq<RegionGroup>): (r: (seq<string>, seq<string>))
    ensures forall x :: x in Members(groups) ==> x in r.0 || x in r.1
    ensures forall x :: x in r.1 ==> x in Members(groups)
  {
    GroupsFacts(remote, groups);
    var report := TagGroups(remote, groups);
    (report.notTagged, report.tagged)
  }

  /** The nested `for` loops of `tag_resources_by_region`: regions in
      dictionary order, batches in order, each batch through `RetryLoop`.
      They build exactly the report `TagGroups` describes. */
  method TagAllRegions(remote: Remote, groups: seq<RegionGroup>) returns (report: Report)
    ensures report == TagGroups(remote, groups)
  {
    report := Report([], [], []);
    var i := 0;
    while i < |groups|
      invariant 0 <= i <= |groups|
      invariant report == TagGroups(remote, groups[..i])
    {
      var regionKey := groups[i].region;
      var batches := Batches(groups[i].arns);
      var region := Report([], [], []);
      var j := 0;
      while j < |batches|
        invariant 0 <= j <= |batches|
        invariant region == TagRegion(remote, regionKey, batches[..j])
      {
        var run := RetryLoop(AttemptsOf(remote, regionKey, j, batches[j]), batches[j]);
        assert batches[..j + 1][..j] == batches[..j];
        region := Then(region, BatchReport(run));
        j := j + 1;
      }
      assert batches[..j] == batches;
      assert groups[..i + 1][..i] == groups[..i];
      report := Then(report, region);
      i := i + 1;
    }
    assert groups[..i] == groups;
  }

  // ---------------------------------------------------------------------------
  // Coverage and soundness, batch by batch

  /** Every ARN of a batch is in one of the lists the batch appends to, and
      the batch appends to `Tagged_list` nothing outside itself. */
  lemma BatchFacts(remote: Remote, regionKey: string, batchNo: nat, batch: seq<string>)
    ensures var r := TagBatch(remote, regionKey, batchNo, batch);
      && (forall x :: x in batch ==> x in r.lists.notTagged || x in r.lists.tagged)
      && (forall x :: x in r.lists.tagged ==> x in batch)
  {
    var tryAt := AttemptsOf(remote, regionKey, batchNo, batch);
    forall a | 0 <= a < MaxAttempts && tryAt(a).exit == Completed
      ensures forall x :: x in batch ==> x in tryAt(a).lists.notTagged || x in tryAt(a).lists.tagged
    {
      AttemptCovers(remote, regionKey, batchNo, batch, a);
    }
    forall a | 0 <= a < MaxAttempts
      ensures forall x :: x in tryAt(a).lists.tagged ==> x in batch
    {
      AttemptAppends(remote, regionKey, batchNo, batch, a);
    }
    RetryCovers(tryAt, batch, 0);
    RetryTaggedWithin(tryAt, batch, 0);
  }

  lemma {:induction false} RegionFacts(remote: Remote, regionKey: string, batches: seq<seq<string>>)
    ensures var r := TagRegion(remote, regionKey, batches);
      && (forall x :: x in Flatten(batches) ==> x in r.notTagged || x in r.tagged)
      && (forall x :: x in r.tagged ==> x in Flatten(batches))
    decreases |batches|
  {
    if |batches| > 0 {
      var n := |batches| - 1;
      RegionFacts(remote, regionKey, batches[..n]);
      BatchFacts(remote, regionKey, n, batches[n]);
    }
  }

  /** Every ARN of every group is in one of the two lists, and only ARNs of
      the groups are reported tagged. */
  lemma {:induction false} GroupsFacts(remote: Remote, groups: seq<RegionGroup>)
    ensures var r := TagGroups(remote, groups);
      && (forall x :: x in Members(groups) ==> x in r.notTagged || x in r.tagged)
      && (forall x :: x in r.tagged ==> x in Members(groups))
    decreases |groups|
  {
    if |groups| > 0 {
      var n := |groups| - 1;
      var init := groups[..n];
      assert groups == init + [groups[n]];
      MembersSnoc(init, groups[n]);
      GroupsFacts(remote, init);
      RegionFacts(remote, groups[n].region, Batches(groups[n].arns));
    }
  }

  /** Grouping then tagging: when grouping succeeds, every input ARN with a
      colon is in at least one returned list, and every ARN reported tagged
      is an input ARN with a colon. */
  lemma GroupThenTag(remote: Remote, arns: seq<string>)
    requires GroupResourcesByRegion(arns).Some?
    ensures var r := TagResourcesByRegion(remote, GroupResourcesByRegion(arns).value);
      && (forall x :: x in arns && ':' in x ==> x in r.0 || x in r.1)
      && (forall x :: x in r.1 ==> x in arns && ':' in x)
  {
    var groups := GroupResourcesByRegion(arns).value;
    assert multiset(Members(groups)) == multiset(ScopedArns(arns));
    forall x ensures x in Members(groups) <==> x in arns && ShapeOf(x).Scoped? {
      ScopedArnsMembers(arns, x);
      assert x in Members(groups) <==> x in multiset(Members(groups));
      assert x in ScopedArns(arns) <==> x in multiset(ScopedArns(arns));
    }
    forall x | x in arns && ':' in x ensures ShapeOf(x).Scoped? {
      var i :| 0 <= i < |arns| && arns[i] == x;
      assert !ShapeOf(arns[i]).Malformed?;
    }
  }
}

=== FILE: text.dfy ===
/** String operations the tagger uses on resource identifiers: Python's
    `str.split` with a one-character separator, the `-1` index into its
    result, and the substring test `p in s`. */
module Text {

  /** Python's `d.join(fields)` for a one-character separator. */
  function Join(fields: seq<string>, d: char): string
    decreases |fields|
  {
    if |fields| == 0 then ""
    else if |fields| == 1 then fields[0]
    else fields[0] + [d] + Join(fields[1..], d)
  }

  /** Python's `s.split(d)`: the fields between occurrences of `d`.  There is
      always at least one field and no field contains the separator. */
  function Split(s: string, d: char): (r: seq<string>)
    ensures |r| >= 1
    ensures forall i :: 0 <= i < |r| ==> d !in r[i]
    decreases |s|
  {
    if |s| == 0 then [""]
    else
      var rest := Split(s[1..], d);
      if s[0] == d then [""] + rest
      else [[s[0]] + rest[0]] + rest[1..]
  }

  /** There is one more field than there are separators. */
  lemma {:induction false} SplitCount(s: string, d: char)
    ensures |Split(s, d)| == multiset(s)[d] + 1
    decreases |s|
  {
    if |s| > 0 {
      SplitCount(s[1..], d);
      assert s == [s[0]] + s[1..];
    }
  }

  /** Joining the fields back with the separator gives the original string. */
  lemma {:induction false} JoinSplit(s: string, d: char)
    ensures Join(Split(s, d), d) == s
    decreases |s|
  {
    if |s| > 0 {
      var rest := Split(s[1..], d);
      JoinSplit(s[1..], d);
      assert s == [s[0]] + s[1..];
      if s[0] != d && |rest| > 1 {
        assert Join(rest, d) == rest[0] + [d] + Join(rest[1..], d);
        assert ([[s[0]] + rest[0]] + rest[1..])[1..] == rest[1..];
      }
    }
  }

  /** A leading separator contributes an empty first field. */
  lemma SplitLeadingSeparator(t: string, d: char)
    ensures Split([d] + t, d) == [""] + Split(t, d)
  {
    assert ([d] + t)[1..] == t;
  }

  /** Splitting a prefix free of separators glues it onto the first field. */
  lemma {:induction false} SplitPrefix(a: string, t: string, d: char)
    requires d !in a
    ensures Split(a + t, d) == [a + Split(t, d)[0]] + Split(t, d)[1..]
    decreases |a|
  {
    var ft := Split(t, d);
    if |a| > 0 {
      assert (a + t)[1..] == a[1..] + t;
      assert (a + t)[0] == a[0];
      SplitPrefix(a[1..], t, d);
      assert [a[0]] + (a[1..] + ft[0]) == a + ft[0];
    } else {
      assert a + t == t;
      assert a + ft[0] == ft[0];
      assert ft == [ft[0]] + ft[1..];
    }
  }

  /** `Split` undoes `Join`: a sequence of separator-free fields is the only
      way to read a string as fields. */
  lemma {:induction false} SplitJoin(fields: seq<string>, d: char)
    requires |fields| >= 1
    requires forall i :: 0 <= i < |fields| ==> d !in fields[i]
    ensures Split(Join(fields, d), d) == fields
    decreases |fields|
  {
    var f0 := fields[0];
    if |fields| == 1 {
      SplitPrefix(f0, "", d);
      assert f0 + "" == f0;
      assert Split("", d) == [""];
    } else {
      var rest := Join(fields[1..], d);
      SplitJoin(fields[1..], d);
      SplitLeadingSeparator(rest, d);
      assert Join(fields, d) == f0 + ([d] + rest);
      SplitPrefix(f0, [d] + rest, d);
      assert f0 + "" == f0;
      assert fields == [f0] + fields[1..];
    }
  }

  /** Python's `s.split(d)[-1]`: the text after the last `d`, or all of `s`
      when `d` does not occur. */
  function LastField(s: string, d: char): (r: string)
    ensures d !in r
    ensures |r| <= |s| && s[|s| - |r|..] == r
    ensures d in s ==> |r| < |s| && s[|s| - |r| - 1] == d
    ensures d !in s ==> r == s
  {
    LastFieldFacts(s, d);
    Last(Split(s, d))
  }

  /** The last element of a non-empty list of fields. */
  function Last(fields: seq<string>): string
    requires |fields| >= 1
  {
    fields[|fields| - 1]
  }

  /** One step of the scan for the last field: either the whole string is
      one field, or the last field lies in the tail. */
  lemma LastFieldStep(s: string, d: char)
    requires |s| > 0
    ensures s[0] != d && d !in s[1..] ==> Last(Split(s, d)) == s
    ensures s[0] == d || d in s[1..] ==> Last(Split(s, d)) == Last(Split(s[1..], d))
  {
    var tail := s[1..];
    var rest := Split(tail, d);
    SplitCount(tail, d);
    if s[0] == d {
      assert Split(s, d) == [""] + rest;
    } else {
      assert Split(s, d) == [[s[0]] + rest[0]] + rest[1..];
      if d in tail {
        assert d in multiset(tail);
      } else {
        assert d !in multiset(tail);
        JoinSplit(tail, d);
        assert s == [s[0]] + tail;
      }
    }
  }

  lemma {:induction false} LastFieldFacts(s: string, d: char)
    ensures |Last(Split(s, d))| <= |s|
    ensures s[|s| - |Last(Split(s, d))|..] == Last(Split(s, d))
    ensures d in s ==> |Last(Split(s, d))| < |s| && s[|s| - |Last(Split(s, d))| - 1] == d
    ensures d !in s ==> Last(Split(s, d)) == s
    decreases |s|
  {
    if |s| > 0 {
      var tail := s[1..];
      LastFieldFacts(tail, d);
      LastFieldStep(s, d);
      assert s == [s[0]] + tail;
      var r := Last(Split(tail, d));
      if s[0] == d || d in tail {
        assert s[|s| - |r|..] == tail[|tail| - |r|..];
        if d in tail {
          assert s[|s| - |r| - 1] == tail[|tail| - |r| - 1];
        }
      }
    }
  }

  /** `p` occurs in `s` starting at position `i`. */
  predicate OccursAt(s: string, p: string, i: nat)
  {
    i + |p| <= |s| && s[i..i + |p|] == p
  }

  /** Python's `p in s` for strings, scanning start positions left to right. */
  predicate HasInfix(s: string, p: string)
    decreases |s|
  {
    (|p| <= |s| && s[..|p|] == p) || (|s| > 0 && HasInfix(s[1..], p))
  }

  /** The scan finds `p` exactly when `p` occurs at some position of `s`. */
  lemma {:induction false} HasInfixIff(s: string, p: string)
    ensures HasInfix(s, p) <==> exists i: nat :: OccursAt(s, p, i)
    decreases |s|
  {
    if |s| > 0 {
      HasInfixIff(s[1..], p);
      if HasInfix(s[1..], p) {
        var i: nat :| OccursAt(s[1..], p, i);
        assert s[1..][i..i + |p|] == s[i + 1..i + 1 + |p|];
        assert OccursAt(s, p, i + 1);
      }
      if |p| <= |s| && s[..|p|] == p {
        assert OccursAt(s, p, 0);
      }
      if exists i: nat :: OccursAt(s, p, i) {
        var i: nat :| OccursAt(s, p, i);
        if i > 0 {
          assert s[1..][i - 1..i - 1 + |p|] == s[i..i + |p|];
          assert OccursAt(s[1..], p, i - 1);
        }
      }
    } else {
      if |p| == 0 {
        assert OccursAt(s, p, 0);
      }
      if exists i: nat :: OccursAt(s, p, i) {
        var i: nat :| OccursAt(s, p, i);
        assert s[..|p|] == p;
      }
    }
  }

  /** A string contains every string occurring at one of its positions. */
  lemma InfixAt(s: string, p: string, i: nat)
    requires OccursAt(s, p, i)
    ensures HasInfix(s, p)
  {
    HasInfixIff(s, p);
  }
}

=== FILE: wrappers.dfy ===
/** The optional value used where the tagger returns `None` or reads a key
    that may be missing from a response. */
module Wrappers {

  datatype Option<+T> = None | Some(value: T)
}
